=== FILE: README.md ===
# LocationNotes core in Dafny

A model of the non-UI core of LocationNotes, an Android app that keeps notes with a geographic location and shows them as a list or as markers on a map. The model covers:

- the note record and its stored row, with the translation between text ids and `Long` keys;
- the Room DAO over the `notes` table, as a map from key to row with Room's and SQLite's semantics;
- the repository that guards every id with `toLongOrNull`;
- the note edit view model;
- the home view model;
- the pure logic of the home screen: view selection, filter, grouping by trimmed location, markers and one-shot centring;
- the sign-in / sign-up view model.

Everything is immutable datatypes and pure functions. Asynchronous work is explicit. An operation returns the requests it issues, and each completion, emission or failure is a separate transition applied to the state current at that moment.

Layout, one module per file:

| file | module | models |
|---|---|---|
| `wrappers.dfy` | `Wrappers` | `Option` (Kotlin's nullable) and `Result` |
| `text.dfy` | `Text` | Kotlin's `isWhitespace`, `isBlank`, `trim`, `split`, `substringBefore` and UTF-16 `length` |
| `decimal.dfy` | `Decimal` | `Long` range, `Long.toString()`, `String.toLongOrNull()` |
| `note.dfy` | `Notes` | `Note`, `NoteEntity`, `toNote`, `toEntity` |
| `note_dao.dfy` | `NoteDao` | the DAO as a table of rows with an AUTOINCREMENT counter |
| `note_repository.dfy` | `NoteRepository` | `NoteRepositoryImpl` |
| `note_view_model.dfy` | `NoteViewModel` | `NoteViewModel` and `NoteUiState` |
| `home_view_model.dfy` | `HomeViewModel` | `HomeViewModel` and `HomeUiState` |
| `home_screen.dfy` | `HomeScreen` | the logic of the `when` in `HomeScreen` |
| `auth_view_model.dfy` | `AuthViewModel` | `AuthViewModel` and `AuthUiState` |

Semantics fixed by the platform, stated in the model:

- **Inserting a row.** The key column is `@PrimaryKey(autoGenerate = true)`, so Room treats key 0 as "generate one". SQLite's AUTOINCREMENT then hands out one more than the largest key the table has ever used. When that largest key is the greatest `Long`, the insert fails (`TableFull`, SQLite's `SQLITE_FULL`).
- **Conflicts.** `@Insert(REPLACE)` on an existing key replaces that row.
- **Update and delete.** `@Update` and `@Delete` match by primary key. `@Update` with no matching row changes nothing.
- **`ORDER BY date DESC`.** SQL leaves the order of equal dates unspecified. The model lists such rows by ascending key.
- **`toLongOrNull`.** Accepts an optional `+` or `-` followed by at least one ASCII digit. Leading zeros are allowed, and the value must lie in the `Long` range.
- **`trim` and `isBlank`.** They use the JVM whitespace set of Kotlin's `Char.isWhitespace`:
  - U+0009..U+000D and U+001C..U+001F;
  - the space separators, including U+00A0, U+2007 and U+202F;
  - U+2028 and U+2029.
- **`String.length`.** Counts UTF-16 code units, so a character outside the Basic Multilingual Plane counts twice.

Parameters in place of what the model cannot see:

- **`toDoubleOrNull`** is the parameter `isNumber: string -> bool`. The home-screen results hold for any double grammar, except the examples `NumbersOneXTwo`, `DroppedPieceStillPlaces`, `UntrimmedPairUnusable`, `TrimmedPairUsable` and `CentringIgnoresTrim`. Those fix `isNumber` to `DigitsOnly`, a non-empty run of ASCII digits, which agrees with the JVM parser on their inputs.
- **`Double.toString`** is a comma-free text, the subset type `CoordinateText`.
- **The signed-in user** is an `Option<User>` argument.
- **Whether the authentication service accepts the credentials** is a boolean argument.
- **The clock reading** is an integer argument.

## Model

Source paths are relative to the repository root.

| member | source | states |
|---|---|---|
| Text.IsWhitespace | app/src/main/java/com/example/locationnotes/ui/home/HomeScreen.kt:211 | a character is whitespace exactly when it is in the JVM set of `Char.isWhitespace`: U+0009..U+000D, U+001C..U+0020, the Unicode space separators including the no-break spaces, and U+2028, U+2029 |
| Text.WhitespaceExamples | app/src/main/java/com/example/locationnotes/ui/home/HomeScreen.kt:211 | space, tab, U+3000 and the no-break spaces U+00A0, U+2007 and U+202F are whitespace; U+0085, U+200B and letters are not |
| Text.IsBlank | app/src/main/java/com/example/locationnotes/ui/home/HomeScreen.kt:211 | `isBlank()` holds exactly when every character is whitespace, so the empty text is blank |
| Text.Trim | app/src/main/java/com/example/locationnotes/ui/home/HomeScreen.kt:224 | `location.trim()` is the location with a blank prefix and a blank suffix cut off, neither end of what is left is Kotlin whitespace, and it is empty exactly when the location is blank |
| Text.TrimPad | app/src/main/java/com/example/locationnotes/ui/home/HomeScreen.kt:224 | whitespace around a location never changes its grouping key: `" 32.0,34.7 "` and `"32.0,34.7"` share a group |
| Text.Split | app/src/main/java/com/example/locationnotes/ui/home/HomeScreen.kt:227 | `split(",")` gives at least one piece, no piece contains a comma, and joining the pieces with commas gives the text back |
| Text.SplitJoin | app/src/main/java/com/example/locationnotes/ui/note/NoteViewModel.kt:94 | comma-free pieces joined with commas split back into exactly those pieces |
| Text.SubstringBefore | app/src/main/java/com/example/locationnotes/ui/home/HomeViewModel.kt:81 | `substringBefore('@')` is a prefix free of '@' that is either the whole text or is followed by '@' |
| Text.Utf16Length | app/src/main/java/com/example/locationnotes/ui/auth/AuthViewModel.kt:43 | `password.length` of one character is 2 exactly when it lies outside the Basic Multilingual Plane, else 1; any length lies between the number of characters and twice that, and equals it when every character is in the plane |
| Text.Utf16LengthAppend | app/src/main/java/com/example/locationnotes/ui/auth/AuthViewModel.kt:43 | the length of a concatenation is the sum of the lengths, so with the one-character case the length of any text is one unit per plane character plus two per character outside it |
| Decimal.NatToString | app/src/main/java/com/example/locationnotes/data/model/Note.kt:15 | a key renders as canonical decimal digits whose value is the key |
| Decimal.LongToString | app/src/main/java/com/example/locationnotes/data/model/Note.kt:15 | `Long.toString()` starts with '-' exactly for negative keys, and the rest is the canonical decimal digits of the magnitude |
| Decimal.ParseLong | app/src/main/java/com/example/locationnotes/data/model/Note.kt:25 | `toLongOrNull()` answers only for an optional '+' or '-' followed by ASCII digits, at least one; unsigned and '+' digits give their value when it is at most the greatest `Long`, '-' digits give the negated value down to the least `Long`, and anything out of range is null |
| Decimal.LongRoundTrip | app/src/main/java/com/example/locationnotes/data/model/Note.kt:15-25 | rendering any `Long` key and parsing it with `toLongOrNull` gives the same key |
| Decimal.LongToStringInjective | app/src/main/java/com/example/locationnotes/data/model/Note.kt:15 | distinct keys render as distinct id texts |
| Decimal.NonCanonicalIds | app/src/main/java/com/example/locationnotes/data/model/Note.kt:25 | "007", "+7" and "-0" parse, and render back as "7", "7" and "0" |
| Decimal.MalformedIds | app/src/main/java/com/example/locationnotes/data/model/Note.kt:25 | "", "+", "-", " 7", "7 " and "abc" are not `Long`s |
| Decimal.OverflowIsNull | app/src/main/java/com/example/locationnotes/data/model/Note.kt:25 | digit strings outside the `Long` range, of either sign, are not `Long`s |
| Notes.ToNote | app/src/main/java/com/example/locationnotes/data/model/Note.kt:13-21 | title, body, date and location are copied, and the id is `Long.toString()` of the key, which parses back to the key |
| Notes.ToEntity | app/src/main/java/com/example/locationnotes/data/model/Note.kt:23-31 | title, body, date and location are copied, and the key is the id's `Long` value or 0 when the id is not a `Long` |
| Notes.EntityRoundTrip | app/src/main/java/com/example/locationnotes/data/model/Note.kt:13-31 | `toEntity(toNote(e)) == e` for every row |
| Notes.NoteRoundTrip | app/src/main/java/com/example/locationnotes/data/model/Note.kt:13-31 | `toNote(toEntity(n)) == n` if and only if the id is the decimal rendering of some `Long` |
| Notes.IdNormalisation | app/src/main/java/com/example/locationnotes/data/model/Note.kt:6-25 | id "007" comes back as "7", and the default id "" becomes key 0 and comes back as "0" |
| Notes.NewNoteGetsKeyZero | app/src/main/java/com/example/locationnotes/data/model/Note.kt:5-11 | a note with default fields always asks the store for a generated key |
| NoteDao.EmptyTableValid | app/src/main/java/com/example/locationnotes/data/local/NoteEntity.kt:6-8 | the fresh table satisfies the integrity invariant the DAO preserves: each row is stored under its own nonzero key, no key exceeds the AUTOINCREMENT counter |
| NoteDao.InsertNote | app/src/main/java/com/example/locationnotes/data/local/NoteDao.kt:15-16 | key 0 stores the row under a key above the AUTOINCREMENT counter, and any other key replaces that row; no other row changes; the counter moves up to the stored key when that key is larger and never moves down; the invariant holds; failure happens exactly when a key must be generated and the counter is exhausted |
| NoteDao.UpdateNote | app/src/main/java/com/example/locationnotes/data/local/NoteDao.kt:18-19 | the row with the matching key is overwritten; without one the table is unchanged; the AUTOINCREMENT counter is kept |
| NoteDao.DeleteNote | app/src/main/java/com/example/locationnotes/data/local/NoteDao.kt:21-22 | exactly the row with the entity's key is removed, the other rows are unchanged, and the AUTOINCREMENT counter is kept |
| NoteDao.DeletedKeyNotReused | app/src/main/java/com/example/locationnotes/data/local/NoteDao.kt:15-22 | after a row is deleted, the next generated key is larger than the deleted key and than every key stored before |
| NoteDao.GetNoteById | app/src/main/java/com/example/locationnotes/data/local/NoteDao.kt:12-13 | the row with that key, or null exactly when there is none |
| NoteDao.FirstExists | app/src/main/java/com/example/locationnotes/data/local/NoteDao.kt:9 | every non-empty set of rows has a first row in `ORDER BY date DESC` order |
| NoteDao.OrderedKeys | app/src/main/java/com/example/locationnotes/data/local/NoteDao.kt:9 | the keys are listed each exactly once, every key is listed, and each precedes the next in listing order |
| NoteDao.GetAllNotes | app/src/main/java/com/example/locationnotes/data/local/NoteDao.kt:9-10 | one entry per stored row, each equal to the row stored under its id, with dates non-increasing |
| NoteDao.GetAllNotesExact | app/src/main/java/com/example/locationnotes/data/local/NoteDao.kt:9-10 | every stored row is listed, and no key is listed twice |
| NoteRepository.ToNotes | app/src/main/java/com/example/locationnotes/data/repository/NoteRepositoryImpl.kt:16-18 | the list has the store list's length and order, and each element is `toNote` of the row at the same position |
| NoteRepository.GetNotes | app/src/main/java/com/example/locationnotes/data/repository/NoteRepositoryImpl.kt:15-19 | one note per stored row, newest first |
| NoteRepository.GetNotesLookup | app/src/main/java/com/example/locationnotes/data/repository/NoteRepositoryImpl.kt:15-23 | each listed note is found again by `getNoteById` with its own id, and no id is listed twice |
| NoteRepository.GetNotesComplete | app/src/main/java/com/example/locationnotes/data/repository/NoteRepositoryImpl.kt:15-19 | every stored row appears in the list as a note |
| NoteRepository.StoredRowFound | app/src/main/java/com/example/locationnotes/data/repository/NoteRepositoryImpl.kt:21-23 | a stored row, turned into a note, is found under that note's id |
| NoteRepository.GetNoteById | app/src/main/java/com/example/locationnotes/data/repository/NoteRepositoryImpl.kt:21-23 | an id that is not a `Long` gives null; otherwise the note of the row with that key, or null exactly when there is no such row |
| NoteRepository.MalformedIdIgnoresTable | app/src/main/java/com/example/locationnotes/data/repository/NoteRepositoryImpl.kt:22 | for a malformed id the answer is null whatever the table holds |
| NoteRepository.AddNote | app/src/main/java/com/example/locationnotes/data/repository/NoteRepositoryImpl.kt:25-27 | the table keeps its invariant; the add fails exactly when a key must be generated and none is left; a numeric nonzero id stores `toEntity(note)` under that key, other rows untouched, and the counter rises to that key if it is larger; any other id stores it under the counter plus one, which becomes the counter |
| NoteRepository.AddFreshNote | app/src/main/java/com/example/locationnotes/data/repository/NoteRepositoryImpl.kt:25-27 | a note whose id is blank, non-numeric or "0" gets a key no row had; no other row changes; the note is found under that key with all its fields |
| NoteRepository.AddWithStoredIdReplaces | app/src/main/java/com/example/locationnotes/data/repository/NoteRepositoryImpl.kt:25-27 | a note whose id is a stored key replaces exactly that row, adds no new key, and is found again by its id |
| NoteRepository.UpdateNote | app/src/main/java/com/example/locationnotes/data/repository/NoteRepositoryImpl.kt:29-31 | a note whose key is stored overwrites exactly that row, other rows and the counter untouched; a note whose key is not stored changes nothing |
| NoteRepository.UpdateThenGet | app/src/main/java/com/example/locationnotes/data/repository/NoteRepositoryImpl.kt:21-31 | after updating a stored note, `getNoteById(note.id)` returns the new fields; with a canonical id it returns the note itself |
| NoteRepository.UpdateMissingIsNoOp | app/src/main/java/com/example/locationnotes/data/repository/NoteRepositoryImpl.kt:29-31 | updating a note whose id is non-numeric or has no row leaves the table unchanged |
| NoteRepository.DeleteNote | app/src/main/java/com/example/locationnotes/data/repository/NoteRepositoryImpl.kt:33-37 | a non-numeric id or a key with no row is a no-op; otherwise exactly that row goes and no other; the AUTOINCREMENT counter is kept |
| NoteRepository.DeleteIdempotent | app/src/main/java/com/example/locationnotes/data/repository/NoteRepositoryImpl.kt:34-36 | deleting twice leaves the same table as deleting once |
| NoteRepository.DeleteThenGet | app/src/main/java/com/example/locationnotes/data/repository/NoteRepositoryImpl.kt:21-37 | after a delete, the id is absent |
| NoteViewModel.LoadNote | app/src/main/java/com/example/locationnotes/ui/note/NoteViewModel.kt:30-37 | the empty id issues only a location fetch, any other id only a lookup of that id; neither changes the state at once |
| NoteViewModel.OnNoteFetched | app/src/main/java/com/example/locationnotes/ui/note/NoteViewModel.kt:38-50 | a found note replaces the state with its id, title, body, date and location; a missing one leaves the state unchanged |
| NoteViewModel.OnLocation | app/src/main/java/com/example/locationnotes/ui/note/NoteViewModel.kt:92-97 | a fix sets the location to a text that splits on ',' into exactly latitude and longitude; no fix changes nothing; no other field is written |
| NoteViewModel.UpdateTitle | app/src/main/java/com/example/locationnotes/ui/note/NoteViewModel.kt:54-56 | only the title changes |
| NoteViewModel.UpdateBody | app/src/main/java/com/example/locationnotes/ui/note/NoteViewModel.kt:58-60 | only the body changes |
| NoteViewModel.SaveNote | app/src/main/java/com/example/locationnotes/ui/note/NoteViewModel.kt:62-80 | exactly one write of the state as a note, field for field: an add if and only if the id is blank, otherwise an update; no validation |
| NoteViewModel.DeleteNoteRequest | app/src/main/java/com/example/locationnotes/ui/note/NoteViewModel.kt:82-87 | exactly one repository delete, with the current id |
| NoteViewModel.ApplyWrite | app/src/main/java/com/example/locationnotes/ui/note/NoteViewModel.kt:62-87 | every request the view model issues keeps the table's invariant |
| NoteViewModel.LoadNewNoteOnlySetsLocation | app/src/main/java/com/example/locationnotes/ui/note/NoteViewModel.kt:31-34 | opening a new note makes no repository call, and whatever the location provider answers, only the location can change |
| NoteViewModel.LoadStoredNote | app/src/main/java/com/example/locationnotes/ui/note/NoteViewModel.kt:37-46 | loading a stored key fills the state from that row; with a canonical id the state's id is the id that was loaded |
| NoteViewModel.LoadMissingNote | app/src/main/java/com/example/locationnotes/ui/note/NoteViewModel.kt:48-50 | loading an id with no row, numeric or not, leaves the state unchanged |
| NoteViewModel.WhitespaceIdLoadsThenAdds | app/src/main/java/com/example/locationnotes/ui/note/NoteViewModel.kt:31-72 | a whitespace-only id is looked up on load and never found, yet saving it adds a new note |
| NoteViewModel.SaveStoredNote | app/src/main/java/com/example/locationnotes/ui/note/NoteViewModel.kt:62-80 | saving a state whose id is a stored key updates that row, and a lookup then returns the state's fields |
| NoteViewModel.SaveNewNote | app/src/main/java/com/example/locationnotes/ui/note/NoteViewModel.kt:62-80 | saving a state with a blank id stores it under a fresh key with all its other fields |
| NoteViewModel.DeleteUnsavedIsNoOp | app/src/main/java/com/example/locationnotes/ui/note/NoteViewModel.kt:82-87 | deleting a note whose id is not a `Long` leaves the table unchanged |
| NoteViewModel.EditScenario | app/src/main/java/com/example/locationnotes/ui/note/NoteViewModel.kt:37-80 | from the default state, load "7" (A, B, "1,2"), set the body to "C", save: the repository is asked to update ("7", "A", "C", "1,2") |
| HomeViewModel.UserName | app/src/main/java/com/example/locationnotes/ui/home/HomeViewModel.kt:80-81 | the display name if present; else the e-mail up to its first '@' (all of it without '@'); else "User" |
| HomeViewModel.LoadUserName | app/src/main/java/com/example/locationnotes/ui/home/HomeViewModel.kt:79-86 | only the user name changes |
| HomeViewModel.StartLoad | app/src/main/java/com/example/locationnotes/ui/home/HomeViewModel.kt:41-42 | loading starts with the error cleared, and notes, mode and user name are kept |
| HomeViewModel.RetryLoadNotes | app/src/main/java/com/example/locationnotes/ui/home/HomeViewModel.kt:74-77 | a retry starts loading with the error cleared, and notes, mode and user name are kept |
| HomeViewModel.OnNotes | app/src/main/java/com/example/locationnotes/ui/home/HomeViewModel.kt:48-56 | an emission sets the notes verbatim, ends loading, clears the error, and keeps mode and user name |
| HomeViewModel.OnLoadFailure | app/src/main/java/com/example/locationnotes/ui/home/HomeViewModel.kt:58-69 | a failure ends loading, raises the error flag, and keeps the notes shown before |
| HomeViewModel.ToggleDisplayMode | app/src/main/java/com/example/locationnotes/ui/home/HomeViewModel.kt:88-95 | the mode changes, and nothing else does |
| HomeViewModel.Init | app/src/main/java/com/example/locationnotes/ui/home/HomeViewModel.kt:36-39 | after `init`: the user's name, no notes, loading, LIST, no error |
| HomeViewModel.ToggleInvolution | app/src/main/java/com/example/locationnotes/ui/home/HomeViewModel.kt:88-95 | toggling twice restores the state |
| HomeViewModel.RetryIsLoad | app/src/main/java/com/example/locationnotes/ui/home/HomeViewModel.kt:74-77 | `retryLoadNotes` has exactly the effect of `loadNotes` |
| HomeViewModel.RetryRecovers | app/src/main/java/com/example/locationnotes/ui/home/HomeViewModel.kt:41-77 | failure, retry and an emission leave the fresh notes shown, not loading, with no error |
| HomeViewModel.UserNameExamples | app/src/main/java/com/example/locationnotes/ui/home/HomeViewModel.kt:81 | "dana@example.com" gives "dana"; "dana" stays whole; an empty display name wins over the e-mail; no user gives "User" |
| HomeScreen.NotesWithLocation | app/src/main/java/com/example/locationnotes/ui/home/HomeScreen.kt:210-212 | a note is kept exactly when its location is non-blank and contains ',' |
| HomeScreen.NotesWithLocationAppend | app/src/main/java/com/example/locationnotes/ui/home/HomeScreen.kt:210-212 | the filter keeps relative order: filtering a concatenation concatenates the filtered parts |
| HomeScreen.NotesWithLocationKeepsAll | app/src/main/java/com/example/locationnotes/ui/home/HomeScreen.kt:210-212 | a list whose notes all have a location passes unchanged |
| HomeScreen.Members | app/src/main/java/com/example/locationnotes/ui/home/HomeScreen.kt:224 | the notes under a key are exactly those whose trimmed location is the key |
| HomeScreen.MembersAppend | app/src/main/java/com/example/locationnotes/ui/home/HomeScreen.kt:224 | a group keeps the notes' relative order |
| HomeScreen.AddToGroups | app/src/main/java/com/example/locationnotes/ui/home/HomeScreen.kt:224 | one `groupBy` step on a `LinkedHashMap`: a note with a new key opens a one-note group at the end and leaves every existing group as it was; otherwise it is appended to the first group with its key and no other group changes |
| HomeScreen.GroupByLocation | app/src/main/java/com/example/locationnotes/ui/home/HomeScreen.kt:224 | the keys are distinct, every note's trimmed location has a group, and each group holds exactly the notes with its key, in order, and is not empty |
| HomeScreen.AddToGroupsStep | app/src/main/java/com/example/locationnotes/ui/home/HomeScreen.kt:224 | adding a note to `groupBy`'s map keeps it a grouping of the longer list |
| HomeScreen.AddToGroupsOrder | app/src/main/java/com/example/locationnotes/ui/home/HomeScreen.kt:224 | adding a note to `groupBy`'s map keeps the groups in the order their keys first occur in the longer list |
| HomeScreen.GroupsInFirstOrder | app/src/main/java/com/example/locationnotes/ui/home/HomeScreen.kt:224-226 | `groupBy` lists its groups, and so the markers are drawn, in the order their trimmed locations first occur among the notes |
| HomeScreen.SameGroupIff | app/src/main/java/com/example/locationnotes/ui/home/HomeScreen.kt:224 | two notes share a group if and only if their trimmed locations are equal |
| HomeScreen.GroupsPartition | app/src/main/java/com/example/locationnotes/ui/home/HomeScreen.kt:224 | every note lies in exactly one group |
| HomeScreen.GroupsTotal | app/src/main/java/com/example/locationnotes/ui/home/HomeScreen.kt:224 | the groups together hold as many notes as the list |
| HomeScreen.Numbers | app/src/main/java/com/example/locationnotes/ui/home/HomeScreen.kt:227 | `mapNotNull { toDoubleOrNull }` keeps exactly the pieces that parse; with NumbersAppend, in their order and with their repetitions |
| HomeScreen.NumbersAppend | app/src/main/java/com/example/locationnotes/ui/home/HomeScreen.kt:227 | the parsed pieces of a concatenation are the parsed pieces of each part, in order |
| HomeScreen.Coordinates | app/src/main/java/com/example/locationnotes/ui/home/HomeScreen.kt:227-229 | a position exists if and only if exactly two pieces parse; the first parsed piece is the latitude and the second the longitude |
| HomeScreen.MarkerTitle | app/src/main/java/com/example/locationnotes/ui/home/HomeScreen.kt:232-234 | one note gives its own title; any other count gives "<n> notes here" whose digits are canonical and read back as the group size |
| HomeScreen.MarkerFor | app/src/main/java/com/example/locationnotes/ui/home/HomeScreen.kt:226-239 | a group gets a marker if and only if its key gives a position; the marker carries that position and the group's notes, a single note's title, or "<n> notes here" with n the group size |
| HomeScreen.FilterMapSound | app/src/main/java/com/example/locationnotes/ui/home/HomeScreen.kt:226-241 | every marker drawn belongs to one of the groups |
| HomeScreen.FilterMapComplete | app/src/main/java/com/example/locationnotes/ui/home/HomeScreen.kt:226-241 | every group with a position has its marker drawn |
| HomeScreen.MarkersExact | app/src/main/java/com/example/locationnotes/ui/home/HomeScreen.kt:226-241 | the markers drawn are exactly those of the groups whose key gives a position |
| HomeScreen.MapMarkers | app/src/main/java/com/example/locationnotes/ui/home/HomeScreen.kt:224-241 | every marker drawn has notes, and its position is what its key reads as |
| HomeScreen.MarkerMembership | app/src/main/java/com/example/locationnotes/ui/home/HomeScreen.kt:210-241 | a note is under a marker if and only if it has a location whose trimmed text gives a position, and that marker has its trimmed location as key |
| HomeScreen.SelectView | app/src/main/java/com/example/locationnotes/ui/home/HomeScreen.kt:139-218 | error first, then loading, then "no notes", then the full list in LIST mode; in MAP mode a message when no note has a location, else the markers |
| HomeScreen.UnusableLocationListedNotMarked | app/src/main/java/com/example/locationnotes/ui/home/HomeScreen.kt:164-240 | a note without a usable location is still listed in LIST mode and is under no marker in MAP mode |
| HomeScreen.FirstLatLng | app/src/main/java/com/example/locationnotes/ui/home/HomeScreen.kt:195-198 | the centring target comes from the first note of the list, read untrimmed |
| HomeScreen.Compose | app/src/main/java/com/example/locationnotes/ui/home/HomeScreen.kt:200-206 | outside the MAP branch, or with the flag down, nothing changes; on the first MAP activation the flag goes down and the camera moves to the first note's position when there is one and stays put when there is none |
| HomeScreen.NoMovesAfterFirstLoad | app/src/main/java/com/example/locationnotes/ui/home/HomeScreen.kt:200-206 | once the flag is down, no later composition moves the camera or changes the screen |
| HomeScreen.CentringAtMostOnce | app/src/main/java/com/example/locationnotes/ui/home/HomeScreen.kt:200-206 | in any run of compositions the camera is moved at most once |
| HomeScreen.FlagDropsWithoutCoordinates | app/src/main/java/com/example/locationnotes/ui/home/HomeScreen.kt:200-206 | the flag goes down on the first MAP activation even when the first note has no position |
| HomeScreen.DroppedPieceStillPlaces | app/src/main/java/com/example/locationnotes/ui/home/HomeScreen.kt:227-228 | with a digits-only number test, "1,x,2" is placed at (1, 2): the bad piece is dropped, not fatal |
| HomeScreen.SingleComponentNotOnMap | app/src/main/java/com/example/locationnotes/ui/home/HomeScreen.kt:210-212 | a note whose location has no comma fails the filter, is listed under no marker, and its text gives no position whatever the double grammar |
| HomeScreen.CentringIgnoresTrim | app/src/main/java/com/example/locationnotes/ui/home/HomeScreen.kt:195-228 | with a no-break space (U+00A0) before "1,2" in the first note, the note gets a marker at (1, 2), because `trim` removes that character, but gives no centring target, because the number parser does not skip it |
| AuthViewModel.ToggleMode | app/src/main/java/com/example/locationnotes/ui/auth/AuthViewModel.kt:21-26 | the mode flips and the message is cleared; the fields and the loading flag are kept |
| AuthViewModel.OnEmailChanged | app/src/main/java/com/example/locationnotes/ui/auth/AuthViewModel.kt:28-30 | only the e-mail changes |
| AuthViewModel.OnPasswordChanged | app/src/main/java/com/example/locationnotes/ui/auth/AuthViewModel.kt:32-34 | only the password changes |
| AuthViewModel.OnConfirmPasswordChanged | app/src/main/java/com/example/locationnotes/ui/auth/AuthViewModel.kt:36-38 | only the confirmation changes |
| AuthViewModel.InputValid | app/src/main/java/com/example/locationnotes/ui/auth/AuthViewModel.kt:43 | input is valid exactly when the e-mail is not blank and the password is at least six UTF-16 units long |
| AuthViewModel.Authenticate | app/src/main/java/com/example/locationnotes/ui/auth/AuthViewModel.kt:40-62 | invalid input sets its message and makes no call; in sign-up mode a mismatch sets its message and makes no call; otherwise loading starts, the old message stays, and exactly one call goes out with the form's credentials: sign-in if and only if in login mode |
| AuthViewModel.OnAuthComplete | app/src/main/java/com/example/locationnotes/ui/auth/AuthViewModel.kt:64-80 | loading ends; `onSuccess` runs if and only if accepted; a rejection sets the sign-in or sign-up message by call; nothing else changes |
| AuthViewModel.ToggleTwice | app/src/main/java/com/example/locationnotes/ui/auth/AuthViewModel.kt:21-26 | toggling twice restores the mode and leaves no message |
| AuthViewModel.InvalidInputFirst | app/src/main/java/com/example/locationnotes/ui/auth/AuthViewModel.kt:43-51 | invalid input, a blank e-mail or a password shorter than six units, is reported even when the confirmation also mismatches, and no call is made |
| AuthViewModel.LoginIgnoresConfirmation | app/src/main/java/com/example/locationnotes/ui/auth/AuthViewModel.kt:48-57 | in login mode the confirmation field has no effect on the call or the outcome |
| AuthViewModel.AuthenticateKeepsForm | app/src/main/java/com/example/locationnotes/ui/auth/AuthViewModel.kt:40-62 | an attempt keeps the fields and the mode |
| AuthViewModel.AttemptThenAnswer | app/src/main/java/com/example/locationnotes/ui/auth/AuthViewModel.kt:53-80 | after an attempt and its answer, loading is over, and a rejection shows the message of the attempt's mode, even if the mode was toggled in between |
| AuthViewModel.AcceptedKeepsEarlierMessage | app/src/main/java/com/example/locationnotes/ui/auth/AuthViewModel.kt:53-77 | an accepted call does not clear a message shown before the attempt |
| AuthViewModel.PasswordLengthInUnits | app/src/main/java/com/example/locationnotes/ui/auth/AuthViewModel.kt:43 | five ASCII characters are too short, while three characters outside the Basic Multilingual Plane make six units and pass |

Behaviour of the code, as modelled:

- **Updating a missing note.** `updateNote` on an id with no row does nothing and raises no error.
- **Saving.** `saveNote` issues its write without validating title or body, and reports no failure.
- **Grouping.** Every non-blank location with a comma is grouped by its trimmed text. A group whose key does not give two numbers gets no marker, and its notes stay in the list.
- **Centring target.** Centring reads the first note of the whole list, untrimmed.
- **Centring flag lifetime.** The flag belongs to the home screen's composition, not to the view model.
- **Loading a missing note.** The state is left as it was.

## Left out

- Compose rendering, dialogs, toasts, navigation and the location-permission and GPS checks of the screens: presentation and platform calls.
- `hasUnsavedChanges`, `saveNote(onSuccess, onError)`, `titleError` and `bodyError`, which the note screen refers to: the note view model does not define them.
- Firebase sign-in, sign-up and `logout`: a foreign SDK. The answer to a call is a boolean input, and sign-out is not modelled.
- Room database construction, dependency injection and build configuration.
- Floating point: `toDoubleOrNull` is the `isNumber` parameter, `Double.toString` a comma-free text, and coordinates stay as text. Zoom levels, the fallback camera position and the device-location camera move at the top of the home screen are not modelled.
- The clock and date formatting: dates are opaque integers supplied by the caller.
- Coroutines and `Flow`: each emission, failure or completion is a discrete transition. Interleavings beyond that are not modelled.
- Decimal.ParseLong: accepts ASCII digits only, while the JVM's `Character.digit` behind `toLongOrNull` also accepts other Unicode decimal digits.
- Text.Utf16Length: strings are sequences of Unicode scalar values, so lone surrogates cannot occur.
- NoteDao.GetAllNotes: rows with equal dates are listed by ascending key, which is one of the orders SQL allows rather than the one SQLite happens to use.

=== FILE: auth_view_model.dfy ===
/**
  `ui/auth/AuthViewModel.kt`: the sign-in / sign-up form state and its
  transitions. `authenticate` validates the form and, when it passes, issues
  one call to the authentication service; the answer is a separate transition
  applied to whatever the state is when it arrives. Whether the service
  accepts the credentials is a parameter.
 */
module AuthViewModel {
  import opened Wrappers
  import opened Text

  /** `AuthUiState`. */
  datatype AuthUiState = AuthUiState(
    email: string,
    password: string,
    confirmPassword: string,
    isLogin: bool,
    isLoading: bool,
    errorMessage: Option<string>)

  /** The default `AuthUiState()`: empty fields, login mode, idle, no message. */
  const DefaultState := AuthUiState("", "", "", true, false, None)

  /** The shortest password accepted, in UTF-16 code units. */
  const MinPasswordLength := 6

  /** "Enter a valid e-mail and password". */
  const InvalidInputMessage := "יש להזין אימייל וסיסמה תקינה"
  /** "The passwords do not match". */
  const MismatchMessage := "הסיסמאות אינן תואמות"
  /** "Sign-in error". */
  const SignInFailedMessage := "שגיאה בהתחברות"
  /** "Sign-up error". */
  const SignUpFailedMessage := "שגיאה בהרשמה"

  /** `toggleMode`: login and sign-up swap and the message is cleared. */
  function ToggleMode(st: AuthUiState): (r: AuthUiState)
    ensures r.isLogin == !st.isLogin && r.errorMessage == None
    ensures r.(isLogin := st.isLogin, errorMessage := st.errorMessage) == st
  {
    st.(isLogin := !st.isLogin, errorMessage := None)
  }

  /** `onEmailChanged`: only the e-mail changes. */
  function OnEmailChanged(st: AuthUiState, value: string): (r: AuthUiState)
    ensures r.email == value && r.(email := st.email) == st
  {
    st.(email := value)
  }

  /** `onPasswordChanged`: only the password changes. */
  function OnPasswordChanged(st: AuthUiState, value: string): (r: AuthUiState)
    ensures r.password == value && r.(password := st.password) == st
  {
    st.(password := value)
  }

  /** `onConfirmPasswordChanged`: only the confirmation changes. */
  function OnConfirmPasswordChanged(st: AuthUiState, value: string): (r: AuthUiState)
    ensures r.confirmPassword == value && r.(confirmPassword := st.confirmPassword) == st
  {
    st.(confirmPassword := value)
  }

  /** A call to the authentication service, with the credentials of the state `authenticate` saw. */
  datatype AuthCall = SignIn(email: string, password: string) | SignUp(email: string, password: string)

  /** The outcome of `authenticate`: the new state and the call it issued, if any. */
  datatype Attempt = Attempt(state: AuthUiState, call: Option<AuthCall>)

  /** The first check of `authenticate`: a non-blank e-mail and a password of at least six UTF-16 units. */
  predicate InputValid(st: AuthUiState) {
    !IsBlank(st.email) && Utf16Length(st.password) >= MinPasswordLength
  }

  /** The second check, made only in sign-up mode: the confirmation equals the password. */
  predicate ConfirmationMatches(st: AuthUiState) {
    st.isLogin || st.password == st.confirmPassword
  }

  /** `authenticate`. Invalid input sets its message; a failed confirmation sets the mismatch message;
      in neither case is a call made or the loading flag touched. Otherwise loading starts, the message
      already shown is kept, and exactly one call goes out: sign-in in login mode, sign-up otherwise. */
  function Authenticate(st: AuthUiState): (r: Attempt)
    ensures !InputValid(st) ==> r == Attempt(st.(errorMessage := Some(InvalidInputMessage)), None)
    ensures InputValid(st) && !ConfirmationMatches(st) ==> r == Attempt(st.(errorMessage := Some(MismatchMessage)), None)
    ensures r.call.Some? <==> InputValid(st) && ConfirmationMatches(st)
    ensures r.call.Some? ==> r.state == st.(isLoading := true)
    ensures r.call.Some? ==> r.call.value.email == st.email && r.call.value.password == st.password
    ensures r.call.Some? ==> (r.call.value.SignIn? <==> st.isLogin)
  {
    if !InputValid(st) then Attempt(st.(errorMessage := Some(InvalidInputMessage)), None)
    else if !ConfirmationMatches(st) then Attempt(st.(errorMessage := Some(MismatchMessage)), None)
    else
      var call := if st.isLogin then SignIn(st.email, st.password) else SignUp(st.email, st.password);
      Attempt(st.(isLoading := true), Some(call))
  }

  /** The message a rejected call leaves. */
  function FailureMessage(call: AuthCall): string {
    match call
    case SignIn(_, _) => SignInFailedMessage
    case SignUp(_, _) => SignUpFailedMessage
  }

  /** The completion listener's effect: the new state, and whether `onSuccess` ran. */
  datatype Completion = Completion(state: AuthUiState, signalled: bool)

  /** The completion of a call, applied to the state current at that moment: loading ends; acceptance
      runs `onSuccess` and leaves the message as it was; rejection sets the call's own message. */
  function OnAuthComplete(st: AuthUiState, call: AuthCall, accepted: bool): (r: Completion)
    ensures !r.state.isLoading
    ensures r.signalled <==> accepted
    ensures accepted ==> r.state == st.(isLoading := false)
    ensures !accepted ==> r.state.errorMessage.Some?
    ensures !accepted ==> (r.state.errorMessage.value == SignInFailedMessage <==> call.SignIn?)
    ensures !accepted ==> (r.state.errorMessage.value == SignUpFailedMessage <==> call.SignUp?)
    ensures r.state.(isLoading := st.isLoading, errorMessage := st.errorMessage) == st
  {
    var done := st.(isLoading := false);
    if accepted then Completion(done, true)
    else Completion(done.(errorMessage := Some(FailureMessage(call))), false)
  }

  /** Toggling twice restores the mode, and leaves no message. */
  lemma ToggleTwice(st: AuthUiState)
    ensures ToggleMode(ToggleMode(st)) == st.(errorMessage := None)
  {
  }

  /** Invalid input, whether a blank e-mail or a short password, is reported before a mismatched
      confirmation, and no call is made. */
  lemma InvalidInputFirst(st: AuthUiState)
    requires !st.isLogin && st.password != st.confirmPassword
    requires !InputValid(st)
    ensures Authenticate(st).state.errorMessage == Some(InvalidInputMessage)
    ensures Authenticate(st).call.None?
  {
  }

  /** In login mode the confirmation field plays no part. */
  lemma LoginIgnoresConfirmation(st: AuthUiState, other: string)
    requires st.isLogin
    ensures Authenticate(st.(confirmPassword := other)).call == Authenticate(st).call
    ensures Authenticate(st.(confirmPassword := other)).state == Authenticate(st).state.(confirmPassword := other)
  {
  }

  /** An attempt leaves the form fields and the mode as they were: only the flag and the message move. */
  lemma AuthenticateKeepsForm(st: AuthUiState)
    ensures var s := Authenticate(st).state;
      s.email == st.email && s.password == st.password && s.confirmPassword == st.confirmPassword
      && s.isLogin == st.isLogin
  {
  }

  /** A full attempt whose call is answered: loading is over, and a rejection shows the message of the mode
      the attempt was made in, even if the mode was toggled in between. */
  lemma AttemptThenAnswer(st: AuthUiState, toggled: bool, accepted: bool)
    requires InputValid(st) && ConfirmationMatches(st)
    ensures var a := Authenticate(st);
      var between := if toggled then ToggleMode(a.state) else a.state;
      var c := OnAuthComplete(between, a.call.value, accepted);
      && !c.state.isLoading
      && (c.signalled <==> accepted)
      && (!accepted ==> c.state.errorMessage == Some(if st.isLogin then SignInFailedMessage else SignUpFailedMessage))
  {
  }

  /** An accepted call does not clear a message shown before the attempt. */
  lemma AcceptedKeepsEarlierMessage(st: AuthUiState, msg: string)
    requires InputValid(st) && ConfirmationMatches(st) && st.errorMessage == Some(msg)
    ensures var a := Authenticate(st);
      OnAuthComplete(a.state, a.call.value, true).state.errorMessage == Some(msg)
  {
  }

  /** The length rule counts UTF-16 units: five ASCII characters are too short, while three characters
      outside the Basic Multilingual Plane make six units and pass. */
  lemma PasswordLengthInUnits()
    ensures !InputValid(DefaultState.(email := "a@b", password := "12345"))
    ensures InputValid(DefaultState.(email := "a@b", password := "\U{1F600}\U{1F600}\U{1F600}"))
  {
    assert !IsWhitespace("a@b"[0]);
    var p := "\U{1F600}\U{1F600}\U{1F600}";
    assert p[1..] == "\U{1F600}\U{1F600}" && p[1..][1..] == "\U{1F600}";
    assert Utf16Length(p) == 6;
  }
}

=== FILE: decimal.dfy ===
/**
  Kotlin's `Long`, its decimal rendering `Long.toString()` and the parser
  `String.toLongOrNull()` that turns note ids into storage keys.
 */
module Decimal {
  import opened Wrappers

  const MinLong: int := -0x8000_0000_0000_0000
  const MaxLong: int := 0x7FFF_FFFF_FFFF_FFFF

  /** A Kotlin `Long`. */
  type int64 = x: int | MinLong <= x <= MaxLong

  predicate IsDigit(c: char) {
    '0' <= c <= '9'
  }

  predicate AllDigits(s: string) {
    forall i :: 0 <= i < |s| ==> IsDigit(s[i])
  }

  function DigitChar(d: nat): (c: char)
    requires d < 10
    ensures IsDigit(c) && c as int - '0' as int == d
  {
    ('0' as int + d) as char
  }

  /** The number a run of decimal digits denotes, read most significant digit first. */
  function DigitsValue(s: string): nat
    requires AllDigits(s)
  {
    if s == [] then 0
    else 10 * DigitsValue(s[..|s| - 1]) + (s[|s| - 1] as int - '0' as int)
  }

  /** Canonical decimal form of a natural number: at least one digit, and no leading zero unless it is "0". */
  predicate IsCanonicalDigits(s: string) {
    |s| >= 1 && AllDigits(s) && (s[0] == '0' ==> s == "0")
  }

  /** Decimal rendering of a natural number; reading it back gives the number. */
  function NatToString(n: nat): (r: string)
    ensures IsCanonicalDigits(r)
    ensures DigitsValue(r) == n
    decreases n
  {
    if n < 10 then [DigitChar(n)]
    else
      var prefix := NatToString(n / 10);
      var r := prefix + [DigitChar(n % 10)];
      assert r[..|r| - 1] == prefix;
      r
  }

  /** Kotlin's `Long.toString()`: a minus sign for negative values, then the canonical digits. */
  function LongToString(k: int64): (r: string)
    ensures |r| >= 1 && (r[0] == '-' <==> k < 0)
    ensures k >= 0 ==> IsCanonicalDigits(r) && DigitsValue(r) == k
    ensures k < 0 ==> IsCanonicalDigits(r[1..]) && DigitsValue(r[1..]) == -(k as int)
  {
    if k < 0 then "-" + NatToString(-(k as int)) else NatToString(k)
  }

  /** Kotlin's `String.toLongOrNull()` (radix 10): an optional leading '+' or '-', then at least one
      digit, and the value must fit in a `Long`; anything else is `null`. Leading zeros are accepted. */
  function ParseLong(s: string): (r: Option<int64>)
    ensures r.Some? ==> |s| >= 1 && AllDigits(s[1..]) && (IsDigit(s[0]) || (|s| >= 2 && (s[0] == '+' || s[0] == '-')))
    ensures AllDigits(s) && |s| >= 1 ==> r == (if DigitsValue(s) <= MaxLong then Some(DigitsValue(s)) else None)
    ensures |s| >= 2 && s[0] == '+' && AllDigits(s[1..]) ==>
      r == (if DigitsValue(s[1..]) <= MaxLong then Some(DigitsValue(s[1..])) else None)
    ensures |s| >= 2 && s[0] == '-' && AllDigits(s[1..]) ==>
      r == (if DigitsValue(s[1..]) <= -MinLong then Some(-(DigitsValue(s[1..]) as int)) else None)
  {
    if |s| == 0 then None
    else if s[0] < '0' then
      if |s| == 1 || !(s[0] == '-' || s[0] == '+') || !AllDigits(s[1..]) then None
      else
        var v: int := if s[0] == '-' then -(DigitsValue(s[1..]) as int) else DigitsValue(s[1..]);
        if MinLong <= v <= MaxLong then Some(v) else None
    else if AllDigits(s) && DigitsValue(s) <= MaxLong then Some(DigitsValue(s))
    else None
  }

  /** Rendering a key and parsing it back gives the same key. */
  lemma LongRoundTrip(k: int64)
    ensures ParseLong(LongToString(k)) == Some(k)
  {
    var s := LongToString(k);
    if k < 0 {
      assert s[1..] == NatToString(-(k as int));
    }
  }

  /** Distinct keys render as distinct strings. */
  lemma LongToStringInjective(j: int64, k: int64)
    requires LongToString(j) == LongToString(k)
    ensures j == k
  {
    LongRoundTrip(j);
    LongRoundTrip(k);
  }

  /** Parsing is not injective: leading zeros and a '+' sign are dropped on the way back. */
  lemma NonCanonicalIds()
    ensures ParseLong("007") == Some(7) && LongToString(7) == "7"
    ensures ParseLong("+7") == Some(7)
    ensures ParseLong("-0") == Some(0) && LongToString(0) == "0"
  {
    assert "007"[..2] == "00" && "00"[..1] == "0" && "0"[..0] == "";
    assert "+7"[1..] == "7" && "7"[..0] == "";
    assert "-0"[1..] == "0" && "0"[..0] == "";
  }

  /** Strings with no digits, or with anything besides one leading sign and digits, do not parse. */
  lemma MalformedIds()
    ensures ParseLong("") == None && ParseLong("+") == None && ParseLong("-") == None
    ensures ParseLong(" 7") == None && ParseLong("7 ") == None && ParseLong("abc") == None
  {
    assert !AllDigits("7 ") by { assert "7 "[1] == ' '; }
  }

  /** Values outside the `Long` range do not parse, in either sign. */
  lemma OverflowIsNull(n: nat)
    requires n > MaxLong
    ensures ParseLong(NatToString(n)) == None
    ensures n > -MinLong ==> ParseLong("-" + NatToString(n)) == None
  {
    var s := "-" + NatToString(n);
    assert s[1..] == NatToString(n);
  }
}

=== FILE: home_screen.dfy ===
/**
  The pure logic inside `ui/home/HomeScreen.kt`: which view the screen shows,
  the notes that go on the map, their grouping by trimmed location text, the
  marker each group gets, and the one-shot camera centring.

  Parsing a coordinate (`toDoubleOrNull`) is a parameter `isNumber`: every
  result here holds whatever the double grammar accepts, except the examples
  at the end, which fix it to the digits-only stand-in `DigitsOnly`. A
  coordinate is kept as the text that parsed.
 */
module HomeScreen {
  import opened Wrappers
  import opened Text
  import opened Decimal
  import opened Notes
  import opened HomeViewModel

  /** Whether `toDoubleOrNull()` accepts a text. */
  type NumberTest = string -> bool

  // ---------------------------------------------------------------------------
  // Notes with a location

  /** The filter of `notesWithLocation`: a non-blank location containing a comma. */
  predicate HasLocation(n: Note) {
    !IsBlank(n.location) && ',' in n.location
  }

  /** `notesWithLocation`: the notes with a location, in their original order. */
  function NotesWithLocation(notes: seq<Note>): (r: seq<Note>)
    ensures forall n :: n in r <==> n in notes && HasLocation(n)
    ensures |r| <= |notes|
  {
    if notes == [] then []
    else (if HasLocation(notes[0]) then [notes[0]] else []) + NotesWithLocation(notes[1..])
  }

  /** The filter keeps relative order: filtering a concatenation concatenates the filtered parts. */
  lemma {:induction false} NotesWithLocationAppend(a: seq<Note>, b: seq<Note>)
    ensures NotesWithLocation(a + b) == NotesWithLocation(a) + NotesWithLocation(b)
    decreases |a|
  {
    if a == [] {
      assert a + b == b;
    } else {
      assert (a + b)[0] == a[0];
      assert (a + b)[1..] == a[1..] + b;
      NotesWithLocationAppend(a[1..], b);
    }
  }

  /** Notes that all have a location are kept as they are. */
  lemma {:induction false} NotesWithLocationKeepsAll(notes: seq<Note>)
    requires forall i :: 0 <= i < |notes| ==> HasLocation(notes[i])
    ensures NotesWithLocation(notes) == notes
    decreases |notes|
  {
    if notes != [] {
      NotesWithLocationKeepsAll(notes[1..]);
    }
  }

  // ---------------------------------------------------------------------------
  // Grouping by trimmed location

  /** The grouping key: `location.trim()`. */
  function LocationKey(n: Note): string {
    Trim(n.location)
  }

  /** The notes sharing the key `k`, in their original order. */
  function Members(notes: seq<Note>, k: string): (r: seq<Note>)
    ensures forall n :: n in r <==> n in notes && LocationKey(n) == k
    ensures |r| <= |notes|
  {
    if notes == [] then []
    else
      var last := notes[|notes| - 1];
      var init := notes[..|notes| - 1];
      assert notes == init + [last];
      Members(init, k) + (if LocationKey(last) == k then [last] else [])
  }

  /** Membership keeps relative order: the members of a concatenation are the members of each part,
      one after the other. */
  lemma {:induction false} MembersAppend(a: seq<Note>, b: seq<Note>, k: string)
    ensures Members(a + b, k) == Members(a, k) + Members(b, k)
    decreases |b|
  {
    if b == [] {
      assert a + b == a;
    } else {
      var init := b[..|b| - 1];
      var last := b[|b| - 1];
      assert a + b == (a + init) + [last];
      assert b == init + [last];
      MembersSnoc(a + init, last, k);
      MembersSnoc(init, last, k);
      MembersAppend(a, init, k);
    }
  }

  /** One entry of the `groupBy` result: a key and the notes under it. */
  datatype Group = Group(key: string, notes: seq<Note>)

  predicate DistinctKeys(groups: seq<Group>) {
    forall i, j :: 0 <= i < j < |groups| ==> groups[i].key != groups[j].key
  }

  /** The position of the group with key `k`, if there is one. */
  function KeyIndex(groups: seq<Group>, k: string): (r: Option<nat>)
    ensures r.Some? ==> r.value < |groups| && groups[r.value].key == k
    ensures r.None? ==> forall i :: 0 <= i < |groups| ==> groups[i].key != k
  {
    if groups == [] then None
    else if groups[0].key == k then Some(0)
    else
      match KeyIndex(groups[1..], k)
      case None => None
      case Some(i) => Some(i + 1)
  }

  /** One step of `groupBy`'s `LinkedHashMap`: append the note to its key's group, or open a new group
      at the end. */
  function AddToGroups(groups: seq<Group>, n: Note): (r: seq<Group>)
    ensures |groups| <= |r| <= |groups| + 1
    ensures forall i :: 0 <= i < |groups| ==> r[i].key == groups[i].key
    ensures |r| == |groups| + 1 <==> KeyIndex(groups, LocationKey(n)).None?
    ensures |r| == |groups| + 1 ==> r[|groups|] == Group(LocationKey(n), [n])
    ensures KeyIndex(groups, LocationKey(n)).None? ==> r == groups + [Group(LocationKey(n), [n])]
    ensures KeyIndex(groups, LocationKey(n)).Some? ==>
      var i := KeyIndex(groups, LocationKey(n)).value;
      r[i].notes == groups[i].notes + [n] && forall j :: 0 <= j < |groups| && j != i ==> r[j] == groups[j]
  {
    var k := LocationKey(n);
    match KeyIndex(groups, k)
    case Some(i) => groups[i := Group(k, groups[i].notes + [n])]
    case None => groups + [Group(k, [n])]
  }

  /** Each group holds exactly the notes with its key, in their original order, and is not empty. */
  predicate GroupsMatch(notes: seq<Note>, groups: seq<Group>) {
    forall i :: 0 <= i < |groups| ==> groups[i].notes == Members(notes, groups[i].key) && groups[i].notes != []
  }

  /** Every note's key has a group. */
  predicate Covers(notes: seq<Note>, groups: seq<Group>) {
    forall n :: n in notes ==> KeyIndex(groups, LocationKey(n)).Some?
  }

  /** `groups` is a grouping of `notes` by trimmed location: distinct keys, every note's key has a group,
      and each group holds exactly the notes with its key, in their original order. */
  predicate IsGrouping(notes: seq<Note>, groups: seq<Group>) {
    DistinctKeys(groups) && GroupsMatch(notes, groups) && Covers(notes, groups)
  }

  lemma MembersSnoc(init: seq<Note>, n: Note, k: string)
    ensures Members(init + [n], k) == Members(init, k) + (if LocationKey(n) == k then [n] else [])
  {
    assert (init + [n])[..|init|] == init;
  }

  /** A key no note has has no members. */
  lemma {:induction false} MembersEmpty(notes: seq<Note>, k: string)
    requires forall x :: x in notes ==> LocationKey(x) != k
    ensures Members(notes, k) == []
    decreases |notes|
  {
    if notes != [] {
      var init := notes[..|notes| - 1];
      assert forall x :: x in init ==> x in notes;
      MembersEmpty(init, k);
      assert notes[|notes| - 1] in notes;
    }
  }

  /** A key without a group has no members. */
  lemma NoMembers(notes: seq<Note>, groups: seq<Group>, k: string)
    requires Covers(notes, groups) && KeyIndex(groups, k).None?
    ensures Members(notes, k) == []
  {
    forall x | x in notes
      ensures LocationKey(x) != k
    {
      assert KeyIndex(groups, LocationKey(x)).Some?;
    }
    MembersEmpty(notes, k);
  }

  lemma JoinGroupMatch(init: seq<Note>, g: seq<Group>, n: Note, i: nat)
    requires DistinctKeys(g) && GroupsMatch(init, g) && KeyIndex(g, LocationKey(n)) == Some(i)
    ensures GroupsMatch(init + [n], g[i := Group(LocationKey(n), g[i].notes + [n])])
  {
    var r := g[i := Group(LocationKey(n), g[i].notes + [n])];
    forall j | 0 <= j < |r|
      ensures r[j].notes == Members(init + [n], r[j].key) && r[j].notes != []
    {
      MembersSnoc(init, n, r[j].key);
    }
  }

  lemma JoinGroupCovers(init: seq<Note>, g: seq<Group>, n: Note, i: nat)
    requires Covers(init, g) && KeyIndex(g, LocationKey(n)) == Some(i)
    ensures Covers(init + [n], g[i := Group(LocationKey(n), g[i].notes + [n])])
  {
    var r := g[i := Group(LocationKey(n), g[i].notes + [n])];
    forall m | m in init + [n]
      ensures KeyIndex(r, LocationKey(m)).Some?
    {
      var x := if m in init then KeyIndex(g, LocationKey(m)).value else i;
      assert r[x].key == LocationKey(m);
    }
  }

  /** A note whose key already has a group joins the end of that group. */
  lemma JoinGroup(init: seq<Note>, g: seq<Group>, n: Note, i: nat)
    requires IsGrouping(init, g) && KeyIndex(g, LocationKey(n)) == Some(i)
    ensures IsGrouping(init + [n], g[i := Group(LocationKey(n), g[i].notes + [n])])
  {
    var r := g[i := Group(LocationKey(n), g[i].notes + [n])];
    assert forall j :: 0 <= j < |r| ==> r[j].key == g[j].key;
    JoinGroupMatch(init, g, n, i);
    JoinGroupCovers(init, g, n, i);
  }

  lemma OpenGroupMatch(init: seq<Note>, g: seq<Group>, n: Note)
    requires GroupsMatch(init, g) && Members(init, LocationKey(n)) == []
    ensures GroupsMatch(init + [n], g + [Group(LocationKey(n), [n])])
  {
    var r := g + [Group(LocationKey(n), [n])];
    forall j | 0 <= j < |r|
      ensures r[j].notes == Members(init + [n], r[j].key) && r[j].notes != []
    {
      MembersSnoc(init, n, r[j].key);
    }
  }

  lemma OpenGroupCovers(init: seq<Note>, g: seq<Group>, n: Note)
    requires Covers(init, g)
    ensures Covers(init + [n], g + [Group(LocationKey(n), [n])])
  {
    var r := g + [Group(LocationKey(n), [n])];
    forall m | m in init + [n]
      ensures KeyIndex(r, LocationKey(m)).Some?
    {
      var x := if m in init then KeyIndex(g, LocationKey(m)).value else |g|;
      assert r[x].key == LocationKey(m);
    }
  }

  /** A note with a new key opens a group of its own at the end. */
  lemma OpenGroup(init: seq<Note>, g: seq<Group>, n: Note)
    requires IsGrouping(init, g) && KeyIndex(g, LocationKey(n)).None?
    ensures IsGrouping(init + [n], g + [Group(LocationKey(n), [n])])
  {
    NoMembers(init, g, LocationKey(n));
    OpenGroupMatch(init, g, n);
    OpenGroupCovers(init, g, n);
  }

  /** Adding one note to a grouping of a list gives a grouping of the extended list. */
  lemma AddToGroupsStep(init: seq<Note>, g: seq<Group>, n: Note)
    requires IsGrouping(init, g)
    ensures IsGrouping(init + [n], AddToGroups(g, n))
  {
    match KeyIndex(g, LocationKey(n))
    case Some(i) => JoinGroup(init, g, n, i);
    case None => OpenGroup(init, g, n);
  }

  /** `groupBy { it.location.trim() }`, one note at a time, as its `LinkedHashMap` fills. */
  function GroupByLocation(notes: seq<Note>): (r: seq<Group>)
    ensures IsGrouping(notes, r)
    decreases |notes|
  {
    if notes == [] then []
    else
      var init := notes[..|notes| - 1];
      var last := notes[|notes| - 1];
      assert notes == init + [last];
      AddToGroupsStep(init, GroupByLocation(init), last);
      AddToGroups(GroupByLocation(init), last)
  }

  /** The position of the first note with key `k`, or the length of the list when there is none. */
  function FirstAt(notes: seq<Note>, k: string): (p: nat)
    ensures p <= |notes|
    ensures p < |notes| ==> LocationKey(notes[p]) == k
    ensures forall i :: 0 <= i < p ==> LocationKey(notes[i]) != k
    decreases |notes|
  {
    if notes == [] then 0
    else if LocationKey(notes[0]) == k then 0
    else
      var p := FirstAt(notes[1..], k);
      assert forall i :: 1 <= i < 1 + p ==> notes[i] == notes[1..][i - 1];
      1 + p
  }

  /** The three properties of `FirstAt` determine it. */
  lemma FirstAtUnique(notes: seq<Note>, k: string, p: nat)
    requires p <= |notes| && (p < |notes| ==> LocationKey(notes[p]) == k)
    requires forall i :: 0 <= i < p ==> LocationKey(notes[i]) != k
    ensures FirstAt(notes, k) == p
  {
  }

  lemma FirstAtSnoc(init: seq<Note>, n: Note, k: string)
    ensures FirstAt(init + [n], k) ==
      if FirstAt(init, k) < |init| then FirstAt(init, k) else if LocationKey(n) == k then |init| else |init| + 1
  {
    var xs := init + [n];
    assert forall i :: 0 <= i < |init| ==> xs[i] == init[i];
    var p := FirstAt(init, k);
    if p < |init| {
      FirstAtUnique(xs, k, p);
    } else if LocationKey(n) == k {
      FirstAtUnique(xs, k, |init|);
    } else {
      FirstAtUnique(xs, k, |init| + 1);
    }
  }

  /** Groups appear in the order their keys first occur in the list. */
  predicate InFirstOrder(notes: seq<Note>, groups: seq<Group>) {
    forall i, j :: 0 <= i < j < |groups| ==> FirstAt(notes, groups[i].key) < FirstAt(notes, groups[j].key)
  }

  /** Every group's key occurs in the list. */
  lemma GroupKeyOccurs(notes: seq<Note>, groups: seq<Group>, i: nat)
    requires GroupsMatch(notes, groups) && i < |groups|
    ensures FirstAt(notes, groups[i].key) < |notes|
  {
    var x := groups[i].notes[0];
    assert x in Members(notes, groups[i].key);
    var m :| 0 <= m < |notes| && notes[m] == x;
  }

  /** A key no group has does not occur in the list. */
  lemma NewKeyAbsent(notes: seq<Note>, groups: seq<Group>, k: string)
    requires Covers(notes, groups) && KeyIndex(groups, k).None?
    ensures FirstAt(notes, k) == |notes|
  {
    var p := FirstAt(notes, k);
    if p < |notes| {
      assert false;
    }
  }

  /** One `LinkedHashMap` step keeps the groups in first-occurrence order. */
  lemma AddToGroupsOrder(init: seq<Note>, g: seq<Group>, n: Note)
    requires IsGrouping(init, g) && InFirstOrder(init, g)
    ensures InFirstOrder(init + [n], AddToGroups(g, n))
  {
    var r := AddToGroups(g, n);
    var xs := init + [n];
    forall i | 0 <= i < |g|
      ensures FirstAt(xs, g[i].key) == FirstAt(init, g[i].key) < |init|
    {
      GroupKeyOccurs(init, g, i);
      FirstAtSnoc(init, n, g[i].key);
    }
    var k := LocationKey(n);
    if KeyIndex(g, k).None? {
      NewKeyAbsent(init, g, k);
      FirstAtSnoc(init, n, k);
    }
    forall i, j | 0 <= i < j < |r|
      ensures FirstAt(xs, r[i].key) < FirstAt(xs, r[j].key)
    {
      assert r[i].key == g[i].key;
      if j < |g| {
        assert r[j].key == g[j].key;
      } else {
        assert r[j].key == k && FirstAt(xs, k) == |init|;
      }
    }
  }

  /** `groupBy` lists the groups in the order their keys first occur, as a `LinkedHashMap` iterates. */
  lemma {:induction false} GroupsInFirstOrder(notes: seq<Note>)
    ensures InFirstOrder(notes, GroupByLocation(notes))
    decreases |notes|
  {
    if notes != [] {
      var init := notes[..|notes| - 1];
      var last := notes[|notes| - 1];
      assert notes == init + [last];
      GroupsInFirstOrder(init);
      AddToGroupsOrder(init, GroupByLocation(init), last);
    }
  }

  /** Two notes of the list share a group exactly when their trimmed locations are equal. */
  lemma SameGroupIff(notes: seq<Note>, a: Note, b: Note)
    requires a in notes && b in notes
    ensures var r := GroupByLocation(notes);
      (exists i :: 0 <= i < |r| && a in r[i].notes && b in r[i].notes) <==> LocationKey(a) == LocationKey(b)
  {
    var r := GroupByLocation(notes);
    if LocationKey(a) == LocationKey(b) {
      var i := KeyIndex(r, LocationKey(a)).value;
      assert a in r[i].notes && b in r[i].notes;
    }
  }

  /** Every note of the list lies in exactly one group. */
  lemma GroupsPartition(notes: seq<Note>, n: Note)
    requires n in notes
    ensures var r := GroupByLocation(notes);
      var i := KeyIndex(r, LocationKey(n)).value;
      n in r[i].notes && forall j :: 0 <= j < |r| && n in r[j].notes ==> j == i
  {
  }

  /** The number of notes over all groups. */
  function Total(groups: seq<Group>): nat {
    if groups == [] then 0 else |groups[0].notes| + Total(groups[1..])
  }

  lemma {:induction false} TotalAppend(groups: seq<Group>, g: Group)
    ensures Total(groups + [g]) == Total(groups) + |g.notes|
    decreases |groups|
  {
    if groups != [] {
      assert (groups + [g])[1..] == groups[1..] + [g];
      TotalAppend(groups[1..], g);
    }
  }

  lemma {:induction false} TotalUpdate(groups: seq<Group>, i: nat, g: Group)
    requires i < |groups|
    ensures Total(groups[i := g]) == Total(groups) - |groups[i].notes| + |g.notes|
    decreases |groups|
  {
    if i > 0 {
      assert groups[i := g][1..] == groups[1..][i - 1 := g];
      TotalUpdate(groups[1..], i - 1, g);
    }
  }

  /** The groups hold as many notes as the list: together with `GroupsPartition`, no note is lost or doubled. */
  lemma {:induction false} GroupsTotal(notes: seq<Note>)
    ensures Total(GroupByLocation(notes)) == |notes|
    decreases |notes|
  {
    if notes != [] {
      var init := notes[..|notes| - 1];
      var last := notes[|notes| - 1];
      var g := GroupByLocation(init);
      GroupsTotal(init);
      match KeyIndex(g, LocationKey(last))
      case Some(i) => TotalUpdate(g, i, Group(LocationKey(last), g[i].notes + [last]));
      case None => TotalAppend(g, Group(LocationKey(last), [last]));
    }
  }

  // ---------------------------------------------------------------------------
  // Markers

  /** `mapNotNull { it.toDoubleOrNull() }`: the pieces that parse, in order. */
  function Numbers(pieces: seq<string>, isNumber: NumberTest): (r: seq<string>)
    ensures forall s :: s in r <==> s in pieces && isNumber(s)
    ensures |r| <= |pieces|
  {
    if pieces == [] then []
    else (if isNumber(pieces[0]) then [pieces[0]] else []) + Numbers(pieces[1..], isNumber)
  }

  /** The parsed pieces keep their order and multiplicity: `Numbers` distributes over concatenation. */
  lemma {:induction false} NumbersAppend(a: seq<string>, b: seq<string>, isNumber: NumberTest)
    ensures Numbers(a + b, isNumber) == Numbers(a, isNumber) + Numbers(b, isNumber)
    decreases |a|
  {
    if a == [] {
      assert a + b == b;
    } else {
      assert (a + b)[0] == a[0];
      assert (a + b)[1..] == a[1..] + b;
      NumbersAppend(a[1..], b, isNumber);
    }
  }

  /** A coordinate pair read from location text: split on ',', drop the pieces that do not parse,
      and accept exactly two. */
  datatype LatLng = LatLng(latitude: string, longitude: string)

  function Coordinates(text: string, isNumber: NumberTest): (r: Option<LatLng>)
    ensures r.Some? <==> |Numbers(Split(text, ','), isNumber)| == 2
    ensures r.Some? ==> Numbers(Split(text, ','), isNumber) == [r.value.latitude, r.value.longitude]
  {
    var nums := Numbers(Split(text, ','), isNumber);
    if |nums| == 2 then
      assert nums == [nums[0], nums[1]];
      assert nums[0] in nums && nums[1] in nums;
      Some(LatLng(nums[0], nums[1]))
    else None
  }

  /** A map marker: its position, its title and the notes its dialog lists. */
  datatype Marker = Marker(key: string, position: LatLng, title: string, notes: seq<Note>)

  /** The marker title: the note's own title for one note; otherwise the group size in canonical
      decimal followed by " notes here". */
  function MarkerTitle(notes: seq<Note>): (t: string)
    ensures |notes| == 1 ==> t == notes[0].title
    ensures |notes| != 1 ==> |t| > 11 && t[|t| - 11..] == " notes here"
    ensures |notes| != 1 ==> IsCanonicalDigits(t[..|t| - 11]) && DigitsValue(t[..|t| - 11]) == |notes|
  {
    if |notes| == 1 then notes[0].title
    else
      var t := NatToString(|notes|) + " notes here";
      assert t[..|t| - 11] == NatToString(|notes|);
      t
  }

  /** The marker of a group, if its key reads as a coordinate pair. */
  function MarkerFor(g: Group, isNumber: NumberTest): (r: Option<Marker>)
    ensures r.Some? <==> Coordinates(g.key, isNumber).Some?
    ensures r.Some? ==> r.value.key == g.key && r.value.notes == g.notes
    ensures r.Some? ==> r.value.position == Coordinates(g.key, isNumber).value
    ensures r.Some? && |g.notes| == 1 ==> r.value.title == g.notes[0].title
    ensures r.Some? && |g.notes| != 1 ==> r.value.title == NatToString(|g.notes|) + " notes here"
  {
    match Coordinates(g.key, isNumber)
    case None => None
    case Some(pos) => Some(Marker(g.key, pos, MarkerTitle(g.notes), g.notes))
  }

  /** Kotlin's `mapNotNull`: the present results of `f`, in order. */
  function FilterMap<A, B>(xs: seq<A>, f: A -> Option<B>): (r: seq<B>)
    ensures |r| <= |xs|
  {
    if xs == [] then []
    else (match f(xs[0]) case None => [] case Some(y) => [y]) + FilterMap(xs[1..], f)
  }

  /** Each result comes from one of the inputs. */
  lemma {:induction false} FilterMapSound<A, B>(xs: seq<A>, f: A -> Option<B>, y: B)
    requires y in FilterMap(xs, f)
    ensures exists i :: 0 <= i < |xs| && f(xs[i]) == Some(y)
    decreases |xs|
  {
    if f(xs[0]) != Some(y) {
      var tail := xs[1..];
      FilterMapSound(tail, f, y);
      var j :| 0 <= j < |tail| && f(tail[j]) == Some(y);
      assert xs[j + 1] == tail[j];
    }
  }

  /** Every present result is kept. */
  lemma {:induction false} FilterMapComplete<A, B>(xs: seq<A>, f: A -> Option<B>, i: nat)
    requires i < |xs| && f(xs[i]).Some?
    ensures f(xs[i]).value in FilterMap(xs, f)
    decreases |xs|
  {
    if i > 0 {
      var tail := xs[1..];
      assert xs[i] == tail[i - 1];
      FilterMapComplete(tail, f, i - 1);
    }
  }

  /** The markers of the groups whose key reads as a coordinate pair, in group order. */
  function Markers(groups: seq<Group>, isNumber: NumberTest): (r: seq<Marker>)
    ensures |r| <= |groups|
  {
    FilterMap(groups, g => MarkerFor(g, isNumber))
  }

  /** The markers are exactly those of the groups that have one. */
  lemma MarkersExact(groups: seq<Group>, isNumber: NumberTest)
    ensures forall m :: m in Markers(groups, isNumber) ==>
      exists i :: 0 <= i < |groups| && MarkerFor(groups[i], isNumber) == Some(m)
    ensures forall i :: 0 <= i < |groups| && MarkerFor(groups[i], isNumber).Some? ==>
      MarkerFor(groups[i], isNumber).value in Markers(groups, isNumber)
  {
    var f := g => MarkerFor(g, isNumber);
    forall m | m in Markers(groups, isNumber)
      ensures exists i :: 0 <= i < |groups| && MarkerFor(groups[i], isNumber) == Some(m)
    {
      FilterMapSound(groups, f, m);
    }
    forall i | 0 <= i < |groups| && MarkerFor(groups[i], isNumber).Some?
      ensures MarkerFor(groups[i], isNumber).value in Markers(groups, isNumber)
    {
      FilterMapComplete(groups, f, i);
    }
  }

  /** Everything the MAP branch draws: the markers of the grouped notes with a location. */
  function MapMarkers(notes: seq<Note>, isNumber: NumberTest): (r: seq<Marker>)
    ensures forall m :: m in r ==> m.notes != [] && Coordinates(m.key, isNumber) == Some(m.position)
  {
    var groups := GroupByLocation(NotesWithLocation(notes));
    MarkersExact(groups, isNumber);
    Markers(groups, isNumber)
  }

  /** A marker's notes all have a location, and its key is their trimmed location. */
  lemma MarkedNoteLocated(notes: seq<Note>, isNumber: NumberTest, m: Marker, n: Note)
    requires m in MapMarkers(notes, isNumber) && n in m.notes
    ensures HasLocation(n) && m.key == LocationKey(n) && Coordinates(LocationKey(n), isNumber).Some?
  {
    var wl := NotesWithLocation(notes);
    var g := GroupByLocation(wl);
    MarkersExact(g, isNumber);
    var i :| 0 <= i < |g| && MarkerFor(g[i], isNumber) == Some(m);
    assert n in Members(wl, g[i].key);
  }

  /** A note with a location whose trimmed text reads as a coordinate pair sits under the marker of that
      text. */
  lemma LocatedNoteMarked(notes: seq<Note>, isNumber: NumberTest, n: Note)
    requires n in notes && HasLocation(n) && Coordinates(LocationKey(n), isNumber).Some?
    ensures exists m :: m in MapMarkers(notes, isNumber) && n in m.notes && m.key == LocationKey(n)
  {
    var wl := NotesWithLocation(notes);
    var g := GroupByLocation(wl);
    MarkersExact(g, isNumber);
    assert n in wl;
    var i := KeyIndex(g, LocationKey(n)).value;
    var m := MarkerFor(g[i], isNumber).value;
    assert m in MapMarkers(notes, isNumber) && n in m.notes;
  }

  /** A note sits under a marker exactly when it has a location whose trimmed text reads as a coordinate
      pair; that marker is the one for its trimmed location. */
  lemma MarkerMembership(notes: seq<Note>, isNumber: NumberTest, n: Note)
    requires n in notes
    ensures (exists m :: m in MapMarkers(notes, isNumber) && n in m.notes)
      <==> HasLocation(n) && Coordinates(LocationKey(n), isNumber).Some?
    ensures forall m :: m in MapMarkers(notes, isNumber) && n in m.notes ==> m.key == LocationKey(n)
  {
    forall m | m in MapMarkers(notes, isNumber) && n in m.notes
      ensures m.key == LocationKey(n) && HasLocation(n) && Coordinates(LocationKey(n), isNumber).Some?
    {
      MarkedNoteLocated(notes, isNumber, m, n);
    }
    if HasLocation(n) && Coordinates(LocationKey(n), isNumber).Some? {
      LocatedNoteMarked(notes, isNumber, n);
    }
  }

  // ---------------------------------------------------------------------------
  // View selection

  /** What the body of the home screen shows. */
  datatype View =
    | ErrorView
    | LoadingView
    | EmptyView
    | ListView(notes: seq<Note>)
    | NoLocationView
    | MapView(markers: seq<Marker>)

  /** Whether the screen composes the MAP branch. */
  predicate InMapBranch(st: HomeUiState) {
    !st.errorLoading && !st.isLoading && st.notes != [] && st.displayMode == Map
  }

  /** The `when` of the screen body: error, then loading, then no notes, then LIST, then MAP; a MAP with no
      located note shows a message instead of a map. */
  function SelectView(st: HomeUiState, isNumber: NumberTest): (r: View)
    ensures r.ErrorView? <==> st.errorLoading
    ensures r.LoadingView? <==> !st.errorLoading && st.isLoading
    ensures r.EmptyView? <==> !st.errorLoading && !st.isLoading && st.notes == []
    ensures r.ListView? <==> !st.errorLoading && !st.isLoading && st.notes != [] && st.displayMode == List
    ensures r.ListView? ==> r.notes == st.notes
    ensures r.NoLocationView? <==> InMapBranch(st) && NotesWithLocation(st.notes) == []
    ensures r.MapView? <==> InMapBranch(st) && NotesWithLocation(st.notes) != []
    ensures r.MapView? ==> r.markers == MapMarkers(st.notes, isNumber)
  {
    if st.errorLoading then ErrorView
    else if st.isLoading then LoadingView
    else if st.notes == [] then EmptyView
    else if st.displayMode == List then ListView(st.notes)
    else if NotesWithLocation(st.notes) == [] then NoLocationView
    else MapView(MapMarkers(st.notes, isNumber))
  }

  /** A note whose location does not read as a coordinate pair is still listed in LIST mode, and in MAP
      mode no marker carries it. */
  lemma UnusableLocationListedNotMarked(st: HomeUiState, isNumber: NumberTest, n: Note)
    requires n in st.notes && !st.errorLoading && !st.isLoading
    requires !HasLocation(n) || Coordinates(LocationKey(n), isNumber).None?
    ensures st.displayMode == List ==> n in SelectView(st, isNumber).notes
    ensures st.displayMode == Map && SelectView(st, isNumber).MapView? ==>
      forall m :: m in SelectView(st, isNumber).markers ==> n !in m.notes
  {
    MarkerMembership(st.notes, isNumber, n);
  }

  // ---------------------------------------------------------------------------
  // One-shot centring

  /** The camera position: the view model's fallback, or centred on a note. */
  datatype Camera = Fallback | CenteredOn(position: LatLng)

  /** The screen's own state: the `isFirstMapLoad` flag and the camera. */
  datatype MapScreen = MapScreen(isFirstMapLoad: bool, camera: Camera)

  const InitialScreen := MapScreen(true, Fallback)

  /** `firstLatLng`: the first note's location, untrimmed, read as a coordinate pair. */
  function FirstLatLng(notes: seq<Note>, isNumber: NumberTest): (r: Option<LatLng>)
    ensures notes == [] ==> r.None?
    ensures notes != [] ==> r == Coordinates(notes[0].location, isNumber)
  {
    if notes == [] then None else Coordinates(notes[0].location, isNumber)
  }

  /** One composition of the screen for the state `st`. In the MAP branch, while the flag is up, the camera
      moves to the first note's coordinates if it has any and the flag goes down in any case. */
  function Compose(screen: MapScreen, st: HomeUiState, isNumber: NumberTest): (r: MapScreen)
    ensures !(InMapBranch(st) && screen.isFirstMapLoad) ==> r == screen
    ensures InMapBranch(st) && screen.isFirstMapLoad ==> !r.isFirstMapLoad
    ensures InMapBranch(st) && screen.isFirstMapLoad && FirstLatLng(st.notes, isNumber).Some? ==>
      r.camera == CenteredOn(FirstLatLng(st.notes, isNumber).value)
    ensures InMapBranch(st) && screen.isFirstMapLoad && FirstLatLng(st.notes, isNumber).None? ==>
      r.camera == screen.camera
    ensures r.camera != screen.camera ==>
      FirstLatLng(st.notes, isNumber).Some? && r.camera == CenteredOn(FirstLatLng(st.notes, isNumber).value)
  {
    if InMapBranch(st) && screen.isFirstMapLoad then
      match FirstLatLng(st.notes, isNumber)
      case Some(pos) => MapScreen(false, CenteredOn(pos))
      case None => MapScreen(false, screen.camera)
    else screen
  }

  /** The screen after composing each state in turn. */
  function ComposeAll(screen: MapScreen, sts: seq<HomeUiState>, isNumber: NumberTest): MapScreen
    decreases |sts|
  {
    if sts == [] then screen else ComposeAll(Compose(screen, sts[0], isNumber), sts[1..], isNumber)
  }

  /** How many compositions in a run move the camera. */
  function CameraMoves(screen: MapScreen, sts: seq<HomeUiState>, isNumber: NumberTest): nat
    decreases |sts|
  {
    if sts == [] then 0
    else
      var next := Compose(screen, sts[0], isNumber);
      (if next.camera != screen.camera then 1 else 0) + CameraMoves(next, sts[1..], isNumber)
  }

  /** Once the flag is down, no composition moves the camera again. */
  lemma {:induction false} NoMovesAfterFirstLoad(screen: MapScreen, sts: seq<HomeUiState>, isNumber: NumberTest)
    requires !screen.isFirstMapLoad
    ensures CameraMoves(screen, sts, isNumber) == 0
    ensures ComposeAll(screen, sts, isNumber) == screen
    decreases |sts|
  {
    if sts != [] {
      NoMovesAfterFirstLoad(screen, sts[1..], isNumber);
    }
  }

  /** The centring fires at most once in any run of compositions, however often the mode is toggled. */
  lemma {:induction false} CentringAtMostOnce(screen: MapScreen, sts: seq<HomeUiState>, isNumber: NumberTest)
    ensures CameraMoves(screen, sts, isNumber) <= 1
    decreases |sts|
  {
    if sts != [] {
      var next := Compose(screen, sts[0], isNumber);
      if next == screen {
        CentringAtMostOnce(next, sts[1..], isNumber);
      } else {
        NoMovesAfterFirstLoad(next, sts[1..], isNumber);
      }
    }
  }

  /** The flag goes down at the first MAP activation even when the first note has no coordinates. */
  lemma FlagDropsWithoutCoordinates(st: HomeUiState, isNumber: NumberTest)
    requires InMapBranch(st) && FirstLatLng(st.notes, isNumber).None?
    ensures Compose(InitialScreen, st, isNumber) == MapScreen(false, Fallback)
  {
  }

  // ---------------------------------------------------------------------------
  // Examples, with a digits-only stand-in for the double grammar

  /** A stand-in for `toDoubleOrNull`: a non-empty run of ASCII digits. */
  function DigitsOnly(s: string): bool {
    |s| > 0 && AllDigits(s)
  }

  lemma SplitOneXTwo()
    ensures Split("1,x,2", ',') == ["1", "x", "2"]
  {
    SplitJoin(["1", "x", "2"], ',');
    assert Join(["1", "x", "2"], ',') == "1,x,2";
  }

  lemma NumbersOneXTwo()
    ensures Numbers(["1", "x", "2"], DigitsOnly) == ["1", "2"]
  {
    assert !DigitsOnly("x") by { assert !IsDigit("x"[0]); }
    assert ["1", "x", "2"][1..] == ["x", "2"];
    assert ["x", "2"][1..] == ["2"];
  }

  /** A piece that does not parse is dropped, not fatal: "1,x,2" is placed at (1, 2). */
  lemma DroppedPieceStillPlaces()
    ensures Coordinates("1,x,2", DigitsOnly) == Some(LatLng("1", "2"))
  {
    SplitOneXTwo();
    NumbersOneXTwo();
  }

  /** A location with a single component (no comma) is left off the map: the filter drops the note, so
      no marker lists it, and the text could not be read as a coordinate pair anyway. */
  lemma SingleComponentNotOnMap(notes: seq<Note>, isNumber: NumberTest, n: Note)
    requires ',' !in n.location
    ensures !HasLocation(n)
    ensures forall m :: m in MapMarkers(notes, isNumber) ==> n !in m.notes
    ensures Coordinates(n.location, isNumber).None?
  {
    forall m | m in MapMarkers(notes, isNumber)
      ensures n !in m.notes
    {
      if n in m.notes {
        MarkedNoteLocated(notes, isNumber, m, n);
      }
    }
    assert Split(n.location, ',') == [n.location];
  }

  lemma UntrimmedPairUnusable()
    ensures Coordinates("\U{A0}1,2", DigitsOnly).None?
  {
    SplitJoin(["\U{A0}1", "2"], ',');
    assert Join(["\U{A0}1", "2"], ',') == "\U{A0}1,2";
    assert !DigitsOnly("\U{A0}1") by { assert !IsDigit("\U{A0}1"[0]); }
    assert Numbers(["\U{A0}1", "2"], DigitsOnly) == ["2"] by {
      assert ["\U{A0}1", "2"][1..] == ["2"];
    }
  }

  lemma TrimmedPairUsable()
    ensures Coordinates("1,2", DigitsOnly) == Some(LatLng("1", "2"))
  {
    SplitJoin(["1", "2"], ',');
    assert Join(["1", "2"], ',') == "1,2";
    assert Numbers(["1", "2"], DigitsOnly) == ["1", "2"] by {
      assert ["1", "2"][1..] == ["2"];
    }
  }

  lemma TrimLeadingNoBreakSpace()
    ensures Trim("\U{A0}1,2") == "1,2"
  {
    var s := "\U{A0}1,2";
    assert IsWhitespace(s[0]) && s[1..] == "1,2";
    assert TrimStart("1,2") == "1,2";
    assert TrimStart(s) == "1,2";
    assert TrimEnd("1,2") == "1,2";
  }

  /** Centring reads the first note untrimmed while grouping trims. A no-break space (U+00A0) is
      whitespace to Kotlin's `trim` but not to the JVM number parser, which skips only U+0000..U+0020:
      with "\u00A01,2" first, the note gets a marker at (1, 2) but the camera stays where it was. */
  lemma CentringIgnoresTrim(n: Note)
    requires n.location == "\U{A0}1,2"
    ensures FirstLatLng([n], DigitsOnly).None?
    ensures LocationKey(n) == "1,2" && Coordinates(LocationKey(n), DigitsOnly) == Some(LatLng("1", "2"))
  {
    UntrimmedPairUnusable();
    TrimLeadingNoBreakSpace();
    TrimmedPairUsable();
  }
}

=== FILE: home_view_model.dfy ===
/**
  `ui/home/HomeViewModel.kt`: the home screen state (`HomeUiState`, with the
  `errorLoading` flag the view model writes) and its transitions. The notes
  subscription is modelled by its events: the load start, each emission and
  a failure. The signed-in user is a parameter.
 */
module HomeViewModel {
  import opened Wrappers
  import opened Text
  import opened Notes

  datatype DisplayMode = List | Map

  /** `HomeUiState` with the `errorLoading` flag the view model uses. */
  datatype HomeUiState = HomeUiState(
    userName: string,
    notes: seq<Note>,
    isLoading: bool,
    displayMode: DisplayMode,
    errorLoading: bool)

  /** The default `HomeUiState()`. */
  const DefaultState := HomeUiState("", [], true, List, false)

  /** The signed-in user as Firebase reports it; both fields are nullable. */
  datatype User = User(displayName: Option<string>, email: Option<string>)

  /** The name `loadUserName` shows: the display name if there is one (even an empty one), else the part of
      the e-mail before the first '@' (all of it when there is no '@'), else "User". */
  function UserName(user: Option<User>): (r: string)
    ensures user.Some? && user.value.displayName.Some? ==> r == user.value.displayName.value
    ensures user.Some? && user.value.displayName.None? && user.value.email.Some? ==>
      var e := user.value.email.value;
      && |r| <= |e| && r == e[..|r|] && '@' !in r && (r == e || e[|r|] == '@')
    ensures user.None? || (user.value.displayName.None? && user.value.email.None?) ==> r == "User"
  {
    match user
    case None => "User"
    case Some(u) =>
      match u.displayName
      case Some(n) => n
      case None =>
        match u.email
        case Some(e) => SubstringBefore(e, '@')
        case None => "User"
  }

  /** `loadUserName`: only the user name changes. */
  function LoadUserName(st: HomeUiState, user: Option<User>): (r: HomeUiState)
    ensures r.userName == UserName(user)
    ensures r.(userName := st.userName) == st
  {
    st.(userName := UserName(user))
  }

  /** `loadNotes` as it starts: loading, no error, everything else kept. */
  function StartLoad(st: HomeUiState): (r: HomeUiState)
    ensures r.isLoading && !r.errorLoading
    ensures r.notes == st.notes && r.displayMode == st.displayMode && r.userName == st.userName
  {
    st.(isLoading := true, errorLoading := false)
  }

  /** `retryLoadNotes` calls `loadNotes`. */
  function RetryLoadNotes(st: HomeUiState): (r: HomeUiState)
    ensures r.isLoading && !r.errorLoading
    ensures r.notes == st.notes && r.displayMode == st.displayMode && r.userName == st.userName
  {
    StartLoad(st)
  }

  /** One emission of the notes subscription: the list is taken verbatim, loading is over, no error. */
  function OnNotes(st: HomeUiState, notes: seq<Note>): (r: HomeUiState)
    ensures r.notes == notes && !r.isLoading && !r.errorLoading
    ensures r.displayMode == st.displayMode && r.userName == st.userName
  {
    st.(notes := notes, isLoading := false, errorLoading := false)
  }

  /** A failure of the subscription (the `catch` operator or the surrounding `try`): loading is over,
      the error flag is up, and the notes shown before are kept. */
  function OnLoadFailure(st: HomeUiState): (r: HomeUiState)
    ensures !r.isLoading && r.errorLoading
    ensures r.notes == st.notes && r.displayMode == st.displayMode && r.userName == st.userName
  {
    st.(isLoading := false, errorLoading := true)
  }

  /** `toggleDisplayMode`: LIST becomes MAP and MAP becomes LIST; nothing else changes. */
  function ToggleDisplayMode(st: HomeUiState): (r: HomeUiState)
    ensures r.displayMode != st.displayMode
    ensures r.(displayMode := st.displayMode) == st
  {
    st.(displayMode := if st.displayMode == List then Map else List)
  }

  /** `init`: the user name is set first, then the notes load starts. */
  function Init(user: Option<User>): (r: HomeUiState)
    ensures r == HomeUiState(UserName(user), [], true, List, false)
  {
    StartLoad(LoadUserName(DefaultState, user))
  }

  /** Toggling twice restores the state. */
  lemma ToggleInvolution(st: HomeUiState)
    ensures ToggleDisplayMode(ToggleDisplayMode(st)) == st
  {
  }

  /** A retry has exactly the effect of the first load. */
  lemma RetryIsLoad(st: HomeUiState)
    ensures RetryLoadNotes(st) == StartLoad(st)
  {
  }

  /** After a failure and a retry, the next emission shows the fresh notes with no error left. */
  lemma RetryRecovers(st: HomeUiState, notes: seq<Note>)
    ensures var r := OnNotes(RetryLoadNotes(OnLoadFailure(st)), notes);
      r.notes == notes && !r.errorLoading && !r.isLoading && r.displayMode == st.displayMode
  {
  }

  /** Examples of the name rule: "dana@example.com" shows "dana", an address without '@' shows whole,
      and an empty display name wins over the e-mail. */
  lemma UserNameExamples()
    ensures UserName(Some(User(None, Some("dana@example.com")))) == "dana"
    ensures UserName(Some(User(None, Some("dana")))) == "dana"
    ensures UserName(Some(User(Some(""), Some("dana@example.com")))) == ""
    ensures UserName(None) == "User"
  {
    var e := "dana@example.com";
    assert e[4] == '@' && e[..4] == "dana";
    assert '@' !in "dana";
    assert SubstringBefore(e, '@') == "dana";
  }
}

=== FILE: note.dfy ===
/**
  The domain note and the stored row, and the translation between them
  (`data/model/Note.kt`, `data/local/NoteEntity.kt`). A note's id is text; a
  row's id is a `Long` key. Dates are opaque integers (epoch milliseconds).
 */
module Notes {
  import opened Wrappers
  import opened Decimal

  /** The domain note; `id == ""` marks a note that has not been stored yet. */
  datatype Note = Note(id: string, title: string, body: string, date: int, location: string)

  /** A row of the `notes` table; `id == 0` asks the store to generate a key. */
  datatype NoteEntity = NoteEntity(id: int64, title: string, body: string, date: int, location: string)

  /** A fresh note with the default field values; the clock reading is a parameter. */
  function NewNote(now: int): Note {
    Note("", "", "", now, "")
  }

  /** The storage key an id text stands for: its `Long` value, or 0 when it is not a `Long`. */
  function KeyOf(id: string): int64 {
    ParseLong(id).GetOr(0)
  }

  /** `NoteEntity.toNote()`: the key is rendered as `Long.toString()` does, which parses back to the key;
      the other fields are copied. */
  function ToNote(e: NoteEntity): (n: Note)
    ensures n.title == e.title && n.body == e.body && n.date == e.date && n.location == e.location
    ensures n.id == LongToString(e.id) && ParseLong(n.id) == Some(e.id)
  {
    LongRoundTrip(e.id);
    Note(LongToString(e.id), e.title, e.body, e.date, e.location)
  }

  /** `Note.toEntity()`: ids that are not a `Long` become key 0, the other fields are copied. */
  function ToEntity(n: Note): (e: NoteEntity)
    ensures e.title == n.title && e.body == n.body && e.date == n.date && e.location == n.location
    ensures ParseLong(n.id).None? ==> e.id == 0
    ensures ParseLong(n.id).Some? ==> e.id == ParseLong(n.id).value
  {
    NoteEntity(KeyOf(n.id), n.title, n.body, n.date, n.location)
  }

  /** Every row survives the trip to a note and back unchanged. */
  lemma EntityRoundTrip(e: NoteEntity)
    ensures ToEntity(ToNote(e)) == e
  {
  }

  /** A note survives the trip to a row and back exactly when its id is the decimal rendering of some `Long`. */
  lemma NoteRoundTrip(n: Note)
    ensures ToNote(ToEntity(n)) == n <==> exists k: int64 :: LongToString(k) == n.id
  {
    if exists k: int64 :: LongToString(k) == n.id {
      var k: int64 :| LongToString(k) == n.id;
      LongRoundTrip(k);
    } else {
      assert LongToString(ToEntity(n).id) != n.id;
    }
  }

  /** Non-canonical ids are normalised: "007" comes back as "7" and the default "" as "0". */
  lemma IdNormalisation(n: Note)
    ensures n.id == "007" ==> ToNote(ToEntity(n)).id == "7"
    ensures n.id == "" ==> ToEntity(n).id == 0 && ToNote(ToEntity(n)).id == "0"
  {
    NonCanonicalIds();
  }

  /** A fresh note always asks the store for a generated key. */
  lemma NewNoteGetsKeyZero(now: int)
    ensures ToEntity(NewNote(now)).id == 0
  {
  }
}

=== FILE: note_dao.dfy ===
/**
  The Room DAO (`data/local/NoteDao.kt`) over the `notes` table, with the
  semantics Room and SQLite give its annotations: `@Insert(REPLACE)` on an
  `autoGenerate` key (key 0 means "generate one"; SQLite's AUTOINCREMENT hands
  out one more than the largest key ever used), `@Update` and `@Delete` by
  primary key, and `ORDER BY date DESC`.
 */
module NoteDao {
  import opened Wrappers
  import opened Decimal
  import opened Notes

  /** SQLITE_FULL: the AUTOINCREMENT sequence has reached the largest `Long`. */
  datatype StoreError = TableFull

  /** The table: rows by key, and the largest key ever used. */
  datatype Table = Table(rows: map<int, NoteEntity>, lastKey: int64)

  /** The result of `insertNote`: the new table and the row id it returns. */
  datatype Inserted = Inserted(table: Table, key: int64)

  /** A fresh database. */
  const EmptyTable := Table(map[], 0)

  /** Integrity of the table: every row is stored under its own id, no row has key 0,
      and no key exceeds the AUTOINCREMENT sequence, which starts at 0 and never decreases. */
  predicate Valid(t: Table) {
    && t.lastKey >= 0
    && 0 !in t.rows
    && forall k :: k in t.rows ==> t.rows[k].id == k && k <= t.lastKey
  }

  lemma EmptyTableValid()
    ensures Valid(EmptyTable)
  {
  }

  /** `insertNote` with `OnConflictStrategy.REPLACE`. A row with key 0 is stored under a key no row
      has ever had; any other row replaces the row with its key. No other row changes, and the
      AUTOINCREMENT sequence moves up to the stored key if that key is larger, never down. */
  function InsertNote(t: Table, e: NoteEntity): (r: Result<Inserted, StoreError>)
    requires Valid(t)
    ensures r.Failure? <==> e.id == 0 && t.lastKey == MaxLong
    ensures r.Success? ==> Valid(r.value.table)
    ensures r.Success? ==> r.value.key in r.value.table.rows && r.value.table.rows[r.value.key] == e.(id := r.value.key)
    ensures r.Success? ==> forall j :: j != r.value.key ==>
      (j in r.value.table.rows <==> j in t.rows) && (j in t.rows ==> r.value.table.rows[j] == t.rows[j])
    ensures r.Success? && e.id == 0 ==> r.value.key !in t.rows && r.value.key > t.lastKey
    ensures r.Success? && e.id != 0 ==> r.value.key == e.id
    ensures r.Success? ==> r.value.table.lastKey == (if r.value.key > t.lastKey then r.value.key else t.lastKey)
  {
    if e.id == 0 then
      if t.lastKey == MaxLong then Failure(TableFull)
      else
        var k: int64 := t.lastKey + 1;
        Success(Inserted(Table(t.rows[k := e.(id := k)], k), k))
    else
      var last: int64 := if e.id > t.lastKey then e.id else t.lastKey;
      Success(Inserted(Table(t.rows[e.id := e], last), e.id))
  }

  /** `updateNote`: overwrites the row with the same key; without such a row nothing changes. The
      AUTOINCREMENT sequence is kept. */
  function UpdateNote(t: Table, e: NoteEntity): (r: Table)
    requires Valid(t)
    ensures Valid(r)
    ensures e.id in t.rows ==> r.rows == t.rows[e.id := e]
    ensures e.id !in t.rows ==> r == t
    ensures r.lastKey == t.lastKey
  {
    if e.id in t.rows then Table(t.rows[e.id := e], t.lastKey) else t
  }

  /** `deleteNote`: removes the row whose key is the entity's id; the other fields do not matter. The
      AUTOINCREMENT sequence is kept, so a deleted key is never handed out again. */
  function DeleteNote(t: Table, e: NoteEntity): (r: Table)
    requires Valid(t)
    ensures Valid(r)
    ensures r.rows.Keys == t.rows.Keys - {e.id}
    ensures forall j :: j in r.rows ==> r.rows[j] == t.rows[j]
    ensures r.lastKey == t.lastKey
  {
    Table(t.rows - {e.id}, t.lastKey)
  }

  /** AUTOINCREMENT never hands a key out twice: after a row is deleted, the next generated key is larger
      than the deleted one, so it cannot come back. */
  lemma DeletedKeyNotReused(t: Table, gone: NoteEntity, e: NoteEntity)
    requires Valid(t) && gone.id in t.rows && e.id == 0
    ensures var r := InsertNote(DeleteNote(t, gone), e);
      r.Success? ==> r.value.key > gone.id && r.value.key !in t.rows
  {
  }

  /** `getNoteById`: the row with that key, or null. */
  function GetNoteById(t: Table, k: int64): (r: Option<NoteEntity>)
    requires Valid(t)
    ensures r.Some? <==> k in t.rows
    ensures r.Some? ==> r.value == t.rows[k] && r.value.id == k
  {
    if k in t.rows then Some(t.rows[k]) else None
  }

  /** The order `ORDER BY date DESC` lists rows in. SQL leaves rows with equal dates in no particular
      order; this model lists them by ascending key. */
  predicate Precedes(rows: map<int, NoteEntity>, a: int, b: int)
    requires a in rows && b in rows
  {
    rows[a].date > rows[b].date || (rows[a].date == rows[b].date && a <= b)
  }

  /** `k` comes first among `keys`. */
  predicate IsFirst(rows: map<int, NoteEntity>, keys: set<int>, k: int)
    requires keys <= rows.Keys
  {
    k in keys && forall j :: j in keys ==> Precedes(rows, k, j)
  }

  /** Every non-empty set of keys has a first one. */
  lemma {:induction false} FirstExists(rows: map<int, NoteEntity>, keys: set<int>)
    requires keys <= rows.Keys && keys != {}
    ensures exists k :: IsFirst(rows, keys, k)
    decreases keys
  {
    assert exists x :: x in keys by {
      if forall x :: x !in keys {
        assert false;
      }
    }
    var x :| x in keys;
    if keys != {x} {
      FirstExists(rows, keys - {x});
      var y :| IsFirst(rows, keys - {x}, y);
      if Precedes(rows, x, y) {
        forall j | j in keys
          ensures Precedes(rows, x, j)
        {
          if j != x {
            assert Precedes(rows, y, j);
          }
        }
        assert IsFirst(rows, keys, x);
      } else {
        assert IsFirst(rows, keys, y);
      }
    } else {
      assert IsFirst(rows, keys, x);
    }
  }

  /** The keys of `keys` in listing order, each once. */
  predicate ListsInOrder(rows: map<int, NoteEntity>, keys: set<int>, r: seq<int>)
    requires keys <= rows.Keys
  {
    && (forall i :: 0 <= i < |r| ==> r[i] in keys)
    && (forall k :: k in keys ==> k in r)
    && (forall i, j :: 0 <= i < j < |r| ==> Precedes(rows, r[i], r[j]) && r[i] != r[j])
  }

  /** Putting the first key in front of a listing of the others lists them all. */
  lemma ConsInOrder(rows: map<int, NoteEntity>, keys: set<int>, k: int, rest: seq<int>)
    requires keys <= rows.Keys && IsFirst(rows, keys, k)
    requires ListsInOrder(rows, keys - {k}, rest)
    ensures ListsInOrder(rows, keys, [k] + rest)
  {
    var r := [k] + rest;
    forall i, j | 0 <= i < j < |r|
      ensures Precedes(rows, r[i], r[j]) && r[i] != r[j]
    {
      assert r[j] == rest[j - 1];
      if i > 0 {
        assert r[i] == rest[i - 1];
      }
    }
    forall x | x in keys
      ensures x in r
    {
      if x != k {
        assert x in rest;
      }
    }
  }

  function OrderedKeys(rows: map<int, NoteEntity>, keys: set<int>): (r: seq<int>)
    requires keys <= rows.Keys
    ensures |r| == |keys|
    ensures ListsInOrder(rows, keys, r)
    decreases keys
  {
    if keys == {} then []
    else
      FirstExists(rows, keys);
      var k :| IsFirst(rows, keys, k);
      var rest := OrderedKeys(rows, keys - {k});
      ConsInOrder(rows, keys, k, rest);
      [k] + rest
  }

  /** The rows stored under the keys `ks`, in that order. */
  function RowsAt(rows: map<int, NoteEntity>, ks: seq<int>): (r: seq<NoteEntity>)
    requires forall i :: 0 <= i < |ks| ==> ks[i] in rows
    ensures |r| == |ks|
    ensures forall i :: 0 <= i < |r| ==> r[i] == rows[ks[i]]
  {
    seq(|ks|, i requires 0 <= i < |ks| => rows[ks[i]])
  }

  /** `getAllNotes`: stored rows, each under its own id, newest date first, as many as the table holds. */
  function GetAllNotes(t: Table): (r: seq<NoteEntity>)
    requires Valid(t)
    ensures |r| == |t.rows|
    ensures forall i :: 0 <= i < |r| ==> r[i].id in t.rows && t.rows[r[i].id] == r[i]
    ensures forall i, j :: 0 <= i < j < |r| ==> r[i].date >= r[j].date
  {
    var ks := OrderedKeys(t.rows, t.rows.Keys);
    var r := RowsAt(t.rows, ks);
    assert |t.rows| == |t.rows.Keys|;
    forall i, j | 0 <= i < j < |r|
      ensures r[i].date >= r[j].date
    {
      assert Precedes(t.rows, ks[i], ks[j]);
    }
    r
  }

  /** `getAllNotes` lists every stored row exactly once. */
  lemma GetAllNotesExact(t: Table)
    requires Valid(t)
    ensures var r := GetAllNotes(t);
      && (forall k :: k in t.rows ==> t.rows[k] in r)
      && (forall i, j :: 0 <= i < j < |r| ==> r[i].id != r[j].id)
  {
    var ks := OrderedKeys(t.rows, t.rows.Keys);
    var r := GetAllNotes(t);
    forall i, j | 0 <= i < j < |r|
      ensures r[i].id != r[j].id
    {
      assert ks[i] != ks[j];
    }
    forall k | k in t.rows
      ensures t.rows[k] in r
    {
      var i :| 0 <= i < |ks| && ks[i] == k;
      assert r[i] == t.rows[k];
    }
  }
}

=== FILE: note_repository.dfy ===
/**
  `data/repository/NoteRepositoryImpl.kt`: the repository translates between
  notes and rows and turns id text into keys. An id that is not a `Long` is
  "absent": lookups find nothing and deletes do nothing, without touching the
  table.
 */
module NoteRepository {
  import opened Wrappers
  import opened Decimal
  import opened Notes
  import Dao = NoteDao

  /** `list.map { it.toNote() }`. */
  function ToNotes(rows: seq<NoteEntity>): (r: seq<Note>)
    ensures |r| == |rows|
    ensures forall i :: 0 <= i < |r| ==> r[i] == ToNote(rows[i])
  {
    seq(|rows|, i requires 0 <= i < |rows| => ToNote(rows[i]))
  }

  /** `getNotes`: one note per stored row, newest first. */
  function GetNotes(t: Dao.Table): (r: seq<Note>)
    requires Dao.Valid(t)
    ensures |r| == |t.rows|
    ensures forall i, j :: 0 <= i < j < |r| ==> r[i].date >= r[j].date
  {
    ToNotes(Dao.GetAllNotes(t))
  }

  /** Every listed note is found again by looking its id up, and no id is listed twice. */
  lemma GetNotesLookup(t: Dao.Table)
    requires Dao.Valid(t)
    ensures var r := GetNotes(t);
      && (forall i :: 0 <= i < |r| ==> GetNoteById(t, r[i].id) == Some(r[i]))
      && (forall i, j :: 0 <= i < j < |r| ==> r[i].id != r[j].id)
  {
    var rows := Dao.GetAllNotes(t);
    var r := GetNotes(t);
    Dao.GetAllNotesExact(t);
    forall i | 0 <= i < |r|
      ensures GetNoteById(t, r[i].id) == Some(r[i])
    {
      StoredRowFound(t, rows[i]);
    }
    forall i, j | 0 <= i < j < |r|
      ensures r[i].id != r[j].id
    {
      if r[i].id == r[j].id {
        LongToStringInjective(rows[i].id, rows[j].id);
      }
    }
  }

  /** Every stored row is listed. */
  lemma GetNotesComplete(t: Dao.Table)
    requires Dao.Valid(t)
    ensures forall k :: k in t.rows ==> ToNote(t.rows[k]) in GetNotes(t)
  {
    var rows := Dao.GetAllNotes(t);
    var r := GetNotes(t);
    Dao.GetAllNotesExact(t);
    forall k | k in t.rows
      ensures ToNote(t.rows[k]) in r
    {
      var i :| 0 <= i < |rows| && rows[i] == t.rows[k];
      assert r[i] == ToNote(t.rows[k]);
    }
  }

  /** A stored row, as a note, is found again under that note's id. */
  lemma StoredRowFound(t: Dao.Table, e: NoteEntity)
    requires Dao.Valid(t)
    requires e.id in t.rows && t.rows[e.id] == e
    ensures GetNoteById(t, ToNote(e).id) == Some(ToNote(e))
  {
  }

  /** `getNoteById`: an id that is not a `Long` is absent; otherwise the row with that key, as a note. */
  function GetNoteById(t: Dao.Table, id: string): (r: Option<Note>)
    requires Dao.Valid(t)
    ensures ParseLong(id).None? ==> r == None
    ensures ParseLong(id).Some? ==> (r.Some? <==> ParseLong(id).value in t.rows)
    ensures r.Some? ==> r.value == ToNote(t.rows[ParseLong(id).value])
  {
    match ParseLong(id)
    case None => None
    case Some(k) =>
      match Dao.GetNoteById(t, k)
      case None => None
      case Some(e) => Some(ToNote(e))
  }

  /** A malformed id is answered without consulting the table: every table gives the same answer. */
  lemma MalformedIdIgnoresTable(t1: Dao.Table, t2: Dao.Table, id: string)
    requires Dao.Valid(t1) && Dao.Valid(t2)
    requires ParseLong(id).None?
    ensures GetNoteById(t1, id) == GetNoteById(t2, id) == None
  {
  }

  /** `addNote`: inserts the note's row (so a numeric id replaces that row, any other id gets a fresh key). */
  function AddNote(t: Dao.Table, note: Note): (r: Result<Dao.Table, Dao.StoreError>)
    requires Dao.Valid(t)
    ensures r.Success? ==> Dao.Valid(r.value)
    ensures r.Failure? <==> KeyOf(note.id) == 0 && t.lastKey == MaxLong
    ensures r.Success? && KeyOf(note.id) != 0 ==> r.value.rows == t.rows[KeyOf(note.id) := ToEntity(note)]
    ensures r.Success? && KeyOf(note.id) == 0 ==>
      r.value.lastKey == t.lastKey + 1 && r.value.rows == t.rows[t.lastKey + 1 := ToEntity(note).(id := t.lastKey + 1)]
    ensures r.Success? && KeyOf(note.id) != 0 ==>
      r.value.lastKey == (if KeyOf(note.id) > t.lastKey then KeyOf(note.id) else t.lastKey)
  {
    match Dao.InsertNote(t, ToEntity(note))
    case Success(ins) => Success(ins.table)
    case Failure(e) => Failure(e)
  }

  /** A note whose id is blank, not a `Long`, or "0" is stored under a fresh key; it can then be looked up
      under that key with all its fields, and no other row changes. */
  lemma AddFreshNote(t: Dao.Table, note: Note)
    requires Dao.Valid(t)
    requires KeyOf(note.id) == 0
    requires t.lastKey < MaxLong
    ensures AddNote(t, note).Success?
    ensures var t' := AddNote(t, note).value;
      var k := t'.lastKey;
      && k !in t.rows
      && t'.rows.Keys == t.rows.Keys + {k}
      && (forall j :: j in t.rows ==> t'.rows[j] == t.rows[j])
      && GetNoteById(t', LongToString(k)) == Some(note.(id := LongToString(k)))
  {
    var ins := Dao.InsertNote(t, ToEntity(note)).value;
    var k := ins.key;
    assert ins.table.lastKey == k;
    LongRoundTrip(k);
  }

  /** Adding a note whose id is a stored key replaces that row instead of creating a new one. */
  lemma AddWithStoredIdReplaces(t: Dao.Table, note: Note)
    requires Dao.Valid(t)
    requires ParseLong(note.id).Some? && ParseLong(note.id).value in t.rows
    ensures AddNote(t, note).Success?
    ensures AddNote(t, note).value.rows.Keys == t.rows.Keys
    ensures AddNote(t, note).value.rows == t.rows[ParseLong(note.id).value := ToEntity(note)]
    ensures GetNoteById(AddNote(t, note).value, note.id) == Some(ToNote(ToEntity(note)))
  {
    var t' := AddNote(t, note).value;
    assert forall j :: j in t'.rows <==> j in t.rows;
  }

  /** `updateNote`: writes the note's row over the row with its key, if there is one. */
  function UpdateNote(t: Dao.Table, note: Note): (r: Dao.Table)
    requires Dao.Valid(t)
    ensures Dao.Valid(r)
    ensures r.rows.Keys == t.rows.Keys
    ensures KeyOf(note.id) !in t.rows ==> r == t
    ensures KeyOf(note.id) in t.rows ==> r.rows == t.rows[KeyOf(note.id) := ToEntity(note)]
    ensures r.lastKey == t.lastKey
  {
    Dao.UpdateNote(t, ToEntity(note))
  }

  /** Write-then-read: after updating a stored note, looking its id up returns the new fields. */
  lemma UpdateThenGet(t: Dao.Table, note: Note)
    requires Dao.Valid(t)
    requires ParseLong(note.id).Some? && ParseLong(note.id).value in t.rows
    ensures var k := ParseLong(note.id).value;
      GetNoteById(UpdateNote(t, note), note.id)
        == Some(Note(LongToString(k), note.title, note.body, note.date, note.location))
    ensures (exists k: int64 :: LongToString(k) == note.id) ==> GetNoteById(UpdateNote(t, note), note.id) == Some(note)
  {
    NoteRoundTrip(note);
  }

  /** Updating a note whose id is not a stored key, including every non-numeric id, changes nothing. */
  lemma UpdateMissingIsNoOp(t: Dao.Table, note: Note)
    requires Dao.Valid(t)
    requires ParseLong(note.id).None? || ParseLong(note.id).value !in t.rows
    ensures UpdateNote(t, note) == t
  {
  }

  /** `deleteNote`: a non-numeric id or a key with no row changes nothing; otherwise exactly that row goes. */
  function DeleteNote(t: Dao.Table, noteId: string): (r: Dao.Table)
    requires Dao.Valid(t)
    ensures Dao.Valid(r)
    ensures ParseLong(noteId).None? ==> r == t
    ensures ParseLong(noteId).Some? && ParseLong(noteId).value !in t.rows ==> r == t
    ensures ParseLong(noteId).Some? ==>
      r.rows.Keys == t.rows.Keys - {ParseLong(noteId).value} && forall j :: j in r.rows ==> r.rows[j] == t.rows[j]
    ensures r.lastKey == t.lastKey
  {
    match ParseLong(noteId)
    case None => t
    case Some(k) =>
      match Dao.GetNoteById(t, k)
      case None => t
      case Some(e) => Dao.DeleteNote(t, e)
  }

  /** Deleting twice leaves the same table as deleting once. */
  lemma DeleteIdempotent(t: Dao.Table, noteId: string)
    requires Dao.Valid(t)
    ensures DeleteNote(DeleteNote(t, noteId), noteId) == DeleteNote(t, noteId)
  {
  }

  /** After a delete the id is absent. */
  lemma DeleteThenGet(t: Dao.Table, noteId: string)
    requires Dao.Valid(t)
    ensures GetNoteById(DeleteNote(t, noteId), noteId) == None
  {
  }
}

=== FILE: note_view_model.dfy ===
/**
  `ui/note/NoteViewModel.kt`: the state of the note edit screen and the
  transitions the view model applies to it. Asynchronous work is explicit:
  an operation returns the requests it issues (to the repository or to the
  location provider), and the completion of a request is a separate
  transition applied to whatever the state is by then.
 */
module NoteViewModel {
  import opened Wrappers
  import opened Text
  import opened Decimal
  import opened Notes
  import Dao = NoteDao
  import Repo = NoteRepository

  /** `NoteUiState`. */
  datatype NoteUiState = NoteUiState(id: string, title: string, body: string, date: int, location: string)

  /** The default `NoteUiState()` a new view model starts in; `now` is the clock reading of its
      construction. */
  function DefaultState(now: int): NoteUiState {
    NoteUiState("", "", "", now, "")
  }

  /** A coordinate as `Double.toString` renders it; such a rendering never contains a comma. */
  type CoordinateText = s: string | ',' !in s witness "0.0"

  /** A location fix from the fused location provider. */
  datatype Fix = Fix(latitude: CoordinateText, longitude: CoordinateText)

  /** Work the view model hands to the repository or the location provider. */
  datatype Request =
    | FetchLocation
    | FetchNote(id: string)
    | AddNote(note: Note)
    | UpdateNote(note: Note)
    | DeleteNote(id: string)

  /** A transition's new state and the requests it issued, in order. */
  datatype Step = Step(state: NoteUiState, requests: seq<Request>)

  /** `loadNote`: the empty id starts a location fetch (a new note); any other id is looked up.
      Neither changes the state at once. */
  function LoadNote(st: NoteUiState, noteId: string): (r: Step)
    ensures r.state == st && |r.requests| == 1
    ensures r.requests[0] == FetchLocation <==> noteId == []
    ensures noteId != [] ==> r.requests[0] == FetchNote(noteId)
  {
    if noteId == [] then Step(st, [FetchLocation]) else Step(st, [FetchNote(noteId)])
  }

  /** Completion of the lookup `loadNote` started: a found note replaces the whole state,
      a missing one leaves it as it is. */
  function OnNoteFetched(st: NoteUiState, found: Option<Note>): (r: NoteUiState)
    ensures found.None? ==> r == st
    ensures found.Some? ==>
      && r.id == found.value.id && r.title == found.value.title && r.body == found.value.body
      && r.date == found.value.date && r.location == found.value.location
  {
    match found
    case None => st
    case Some(n) => NoteUiState(n.id, n.title, n.body, n.date, n.location)
  }

  /** Completion of the location fetch: a fix becomes `"<lat>,<lng>"`, which splits back into the two
      coordinates; no fix changes nothing. Only the location field is ever written. */
  function OnLocation(st: NoteUiState, fix: Option<Fix>): (r: NoteUiState)
    ensures r.id == st.id && r.title == st.title && r.body == st.body && r.date == st.date
    ensures fix.None? ==> r == st
    ensures fix.Some? ==> Split(r.location, ',') == [fix.value.latitude, fix.value.longitude]
  {
    match fix
    case None => st
    case Some(f) =>
      var loc := f.latitude + "," + f.longitude;
      assert Join([f.latitude, f.longitude], ',') == loc;
      SplitJoin([f.latitude, f.longitude], ',');
      st.(location := loc)
  }

  /** `updateTitle`: only the title changes. */
  function UpdateTitle(st: NoteUiState, value: string): (r: NoteUiState)
    ensures r.title == value
    ensures r.id == st.id && r.body == st.body && r.date == st.date && r.location == st.location
  {
    st.(title := value)
  }

  /** `updateBody`: only the body changes. */
  function UpdateBody(st: NoteUiState, value: string): (r: NoteUiState)
    ensures r.body == value
    ensures r.id == st.id && r.title == st.title && r.date == st.date && r.location == st.location
  {
    st.(body := value)
  }

  /** The note `saveNote` builds from the state, field for field. */
  function NoteOf(st: NoteUiState): Note {
    Note(st.id, st.title, st.body, st.date, st.location)
  }

  /** `saveNote`: exactly one write of the state as a note, an add when the id is blank and an update
      otherwise. Title and body are not validated; the state does not change. */
  function SaveNote(st: NoteUiState): (r: seq<Request>)
    ensures |r| == 1
    ensures r[0].AddNote? <==> IsBlank(st.id)
    ensures r[0].AddNote? || r[0].UpdateNote?
    ensures r[0].note == Note(st.id, st.title, st.body, st.date, st.location)
  {
    if IsBlank(st.id) then [AddNote(NoteOf(st))] else [UpdateNote(NoteOf(st))]
  }

  /** `deleteNote`: exactly one repository delete, with the current id. */
  function DeleteNoteRequest(st: NoteUiState): (r: seq<Request>)
    ensures |r| == 1 && r[0] == DeleteNote(st.id)
  {
    [DeleteNote(st.id)]
  }

  /** What a write request does to the table through the repository; reads leave it alone. */
  function ApplyWrite(t: Dao.Table, req: Request): (r: Result<Dao.Table, Dao.StoreError>)
    requires Dao.Valid(t)
    ensures r.Success? ==> Dao.Valid(r.value)
  {
    match req
    case AddNote(n) => Repo.AddNote(t, n)
    case UpdateNote(n) => Success(Repo.UpdateNote(t, n))
    case DeleteNote(id) => Success(Repo.DeleteNote(t, id))
    case FetchLocation => Success(t)
    case FetchNote(_) => Success(t)
  }

  /** Opening the screen for a new note touches no repository; afterwards, whatever the location
      provider answers, only the location can differ from the state before. */
  lemma LoadNewNoteOnlySetsLocation(st: NoteUiState, fix: Option<Fix>)
    ensures LoadNote(st, "").requests == [FetchLocation]
    ensures var r := OnLocation(LoadNote(st, "").state, fix);
      r.(location := st.location) == st
  {
  }

  /** Loading a stored note by a non-empty id replaces the state with that row's fields; when the id is
      the canonical decimal form of the key, the state's id is that same text. */
  lemma LoadStoredNote(st: NoteUiState, noteId: string, t: Dao.Table)
    requires Dao.Valid(t)
    requires ParseLong(noteId).Some? && ParseLong(noteId).value in t.rows
    ensures var step := LoadNote(st, noteId);
      var e := t.rows[ParseLong(noteId).value];
      var r := OnNoteFetched(step.state, Repo.GetNoteById(t, noteId));
      r == NoteUiState(LongToString(e.id), e.title, e.body, e.date, e.location)
    ensures (exists k: int64 :: LongToString(k) == noteId) ==>
      OnNoteFetched(st, Repo.GetNoteById(t, noteId)).id == noteId
  {
    var k := ParseLong(noteId).value;
    if exists j: int64 :: LongToString(j) == noteId {
      var j: int64 :| LongToString(j) == noteId;
      LongRoundTrip(j);
    }
  }

  /** Loading an id with no stored note, numeric or not, leaves the state unchanged. */
  lemma LoadMissingNote(st: NoteUiState, noteId: string, t: Dao.Table)
    requires Dao.Valid(t)
    requires ParseLong(noteId).None? || ParseLong(noteId).value !in t.rows
    ensures OnNoteFetched(LoadNote(st, noteId).state, Repo.GetNoteById(t, noteId)) == st
  {
  }

  /** A non-empty whitespace id is never a `Long`. */
  lemma BlankIsNotLong(s: string)
    requires s != [] && IsBlank(s)
    ensures ParseLong(s).None?
  {
    assert IsWhitespace(s[0]);
    assert !IsDigit(s[0]);
  }

  /** `loadNote` tests `isEmpty` but `saveNote` tests `isBlank`: a whitespace-only id is looked up on load
      (and never found), yet saving it adds a new note instead of updating. */
  lemma WhitespaceIdLoadsThenAdds(st: NoteUiState, t: Dao.Table)
    requires Dao.Valid(t)
    requires st.id != [] && IsBlank(st.id)
    ensures LoadNote(st, st.id).requests == [FetchNote(st.id)]
    ensures Repo.GetNoteById(t, st.id) == None
    ensures SaveNote(st)[0].AddNote?
  {
    BlankIsNotLong(st.id);
  }

  /** Saving a state whose id is a stored key writes its fields to that row, where a lookup finds them. */
  lemma SaveStoredNote(st: NoteUiState, t: Dao.Table)
    requires Dao.Valid(t)
    requires ParseLong(st.id).Some? && ParseLong(st.id).value in t.rows
    ensures SaveNote(st) == [UpdateNote(NoteOf(st))]
    ensures var r := ApplyWrite(t, SaveNote(st)[0]);
      r.Success? && Repo.GetNoteById(r.value, st.id).Some?
      && Repo.GetNoteById(r.value, st.id).value.(id := st.id) == NoteOf(st)
  {
    if IsBlank(st.id) {
      BlankIsNotLong(st.id);
    }
    Repo.UpdateThenGet(t, NoteOf(st));
  }

  /** Saving a state with a blank id stores it under a fresh key, with all its other fields. */
  lemma SaveNewNote(st: NoteUiState, t: Dao.Table)
    requires Dao.Valid(t)
    requires IsBlank(st.id)
    requires t.lastKey < MaxLong
    ensures var r := ApplyWrite(t, SaveNote(st)[0]);
      && r.Success?
      && r.value.lastKey !in t.rows
      && Repo.GetNoteById(r.value, LongToString(r.value.lastKey)).Some?
      && Repo.GetNoteById(r.value, LongToString(r.value.lastKey)).value.(id := st.id) == NoteOf(st)
  {
    if st.id != [] {
      BlankIsNotLong(st.id);
    }
    Repo.AddFreshNote(t, NoteOf(st));
  }

  /** Deleting a note that was never stored (its id is not a `Long`) leaves the table as it is. */
  lemma DeleteUnsavedIsNoOp(st: NoteUiState, t: Dao.Table)
    requires Dao.Valid(t)
    requires ParseLong(st.id).None?
    ensures ApplyWrite(t, DeleteNoteRequest(st)[0]) == Success(t)
  {
  }

  /** Load note "7" (title "A", body "B", location "1,2"), change the body to "C", save: the repository
      is asked to update the note with id "7", title "A", body "C" and location "1,2". */
  lemma EditScenario(now: int, t: Dao.Table, date: int)
    requires Dao.Valid(t)
    requires 7 in t.rows && t.rows[7] == NoteEntity(7, "A", "B", date, "1,2")
    ensures var loaded := OnNoteFetched(LoadNote(DefaultState(now), "7").state, Repo.GetNoteById(t, "7"));
      SaveNote(UpdateBody(loaded, "C")) == [UpdateNote(Note("7", "A", "C", date, "1,2"))]
  {
    assert "7"[..0] == "";
    assert ParseLong("7") == Some(7);
    assert LongToString(7) == "7";
    assert !IsBlank("7") by { assert !IsWhitespace("7"[0]); }
  }
}

=== FILE: text.dfy ===
/**
  The Kotlin string operations the app relies on: `isBlank`, `trim`, `split`,
  `substringBefore` and `String.length` (which counts UTF-16 code units).
  Strings are sequences of Unicode scalar values.
 */
module Text {

  /** Kotlin's `Char.isWhitespace` on the JVM: Java whitespace or a Unicode space separator
      (so the no-break spaces U+00A0, U+2007 and U+202F count, U+0085 does not). */
  predicate IsWhitespace(c: char) {
    || c == ' '
    || ('\t' <= c <= '\r')
    || ('\U{1C}' <= c <= '\U{1F}')
    || c == '\U{A0}'
    || c == '\U{1680}'
    || ('\U{2000}' <= c <= '\U{200A}')
    || c == '\U{2028}'
    || c == '\U{2029}'
    || c == '\U{202F}'
    || c == '\U{205F}'
    || c == '\U{3000}'
  }

  /** The JVM set differs from ASCII whitespace: tab, space and the no-break spaces U+00A0, U+2007 and
      U+202F are whitespace, while NEL (U+0085) and the zero-width space (U+200B) are not. */
  lemma WhitespaceExamples()
    ensures IsWhitespace(' ') && IsWhitespace('\t') && IsWhitespace('\U{3000}')
    ensures IsWhitespace('\U{A0}') && IsWhitespace('\U{2007}') && IsWhitespace('\U{202F}')
    ensures !IsWhitespace('\U{85}') && !IsWhitespace('\U{200B}') && !IsWhitespace('a')
  {
  }

  /** Kotlin's `isBlank`: empty or whitespace only. */
  predicate IsBlank(s: string) {
    forall i :: 0 <= i < |s| ==> IsWhitespace(s[i])
  }

  /** Drops the leading whitespace. */
  function TrimStart(s: string): (r: string)
    ensures r == [] || !IsWhitespace(r[0])
  {
    if |s| > 0 && IsWhitespace(s[0]) then TrimStart(s[1..]) else s
  }

  /** Drops the trailing whitespace. */
  function TrimEnd(s: string): (r: string)
    ensures r == [] || !IsWhitespace(r[|r| - 1])
  {
    if |s| > 0 && IsWhitespace(s[|s| - 1]) then TrimEnd(s[..|s| - 1]) else s
  }

  /** `TrimStart` keeps a suffix and drops only whitespace. */
  lemma {:induction false} TrimStartSuffix(s: string)
    ensures var r := TrimStart(s);
      |r| <= |s| && r == s[|s| - |r|..] && IsBlank(s[..|s| - |r|])
    decreases |s|
  {
    if |s| > 0 && IsWhitespace(s[0]) {
      var r := TrimStart(s[1..]);
      assert TrimStart(s) == r;
      TrimStartSuffix(s[1..]);
      var k := |s| - |r|;
      assert s[1..][k - 1..] == s[k..];
      assert s[..k] == [s[0]] + s[1..][..k - 1];
      BlankConcat([s[0]], s[1..][..k - 1]);
    }
  }

  /** `TrimEnd` keeps a prefix and drops only whitespace. */
  lemma {:induction false} TrimEndPrefix(s: string)
    ensures var r := TrimEnd(s);
      |r| <= |s| && r == s[..|r|] && IsBlank(s[|r|..])
    decreases |s|
  {
    if |s| > 0 && IsWhitespace(s[|s| - 1]) {
      var r := TrimEnd(s[..|s| - 1]);
      assert TrimEnd(s) == r;
      TrimEndPrefix(s[..|s| - 1]);
      assert s[..|s| - 1][..|r|] == s[..|r|];
      assert s[|r|..] == s[..|s| - 1][|r|..] + [s[|s| - 1]];
      BlankConcat(s[..|s| - 1][|r|..], [s[|s| - 1]]);
    }
  }

  lemma {:induction false} TrimStartEmpty(s: string)
    ensures TrimStart(s) == [] <==> IsBlank(s)
    decreases |s|
  {
    if |s| > 0 && IsWhitespace(s[0]) {
      TrimStartEmpty(s[1..]);
      if IsBlank(s[1..]) {
        forall i | 0 <= i < |s|
          ensures IsWhitespace(s[i])
        {
          if i > 0 { assert s[i] == s[1..][i - 1]; }
        }
      }
    }
  }

  lemma {:induction false} TrimEndEmpty(s: string)
    ensures TrimEnd(s) == [] <==> IsBlank(s)
    decreases |s|
  {
    if |s| > 0 && IsWhitespace(s[|s| - 1]) {
      TrimEndEmpty(s[..|s| - 1]);
      if IsBlank(s[..|s| - 1]) {
        forall i | 0 <= i < |s|
          ensures IsWhitespace(s[i])
        {
          if i < |s| - 1 { assert s[i] == s[..|s| - 1][i]; }
        }
      }
    }
  }

  lemma {:induction false} TrimEndKeepsStart(s: string)
    requires s != [] && !IsWhitespace(s[0])
    ensures TrimEnd(s) != [] && TrimEnd(s)[0] == s[0]
    decreases |s|
  {
    if |s| > 1 && IsWhitespace(s[|s| - 1]) {
      TrimEndKeepsStart(s[..|s| - 1]);
    }
  }

  /** Trimming both ends takes a slice whose outside is blank. */
  lemma TrimSlice(s: string)
    ensures var t := TrimStart(s); var i := |s| - |t|; var j := i + |TrimEnd(t)|;
      0 <= i <= j <= |s| && TrimEnd(t) == s[i..j] && IsBlank(s[..i]) && IsBlank(s[j..])
  {
    var t := TrimStart(s);
    var r := TrimEnd(t);
    var i := |s| - |t|;
    var j := i + |r|;
    TrimStartSuffix(s);
    TrimEndPrefix(t);
    assert t[..|r|] == s[i..j];
    assert s[j..] == t[|r|..];
  }

  /** Kotlin's `trim()`: the text with a blank prefix and a blank suffix removed, such that neither end of
      what is left is whitespace; only blank strings trim to "". */
  function Trim(s: string): (r: string)
    ensures exists i, j :: 0 <= i <= j <= |s| && r == s[i..j] && IsBlank(s[..i]) && IsBlank(s[j..])
    ensures r == [] || (!IsWhitespace(r[0]) && !IsWhitespace(r[|r| - 1]))
    ensures r == [] <==> IsBlank(s)
  {
    var t := TrimStart(s);
    TrimStartEmpty(s);
    TrimSlice(s);
    if t != [] then TrimEndKeepsStart(t); TrimEnd(t) else TrimEnd(t)
  }

  lemma {:induction false} TrimStartBlankPrefix(p: string, x: string)
    requires IsBlank(p)
    ensures TrimStart(p + x) == TrimStart(x)
    decreases |p|
  {
    if p == [] {
      assert p + x == x;
    } else {
      var px := p + x;
      assert px[0] == p[0];
      assert px[1..] == p[1..] + x;
      TrimStartBlankPrefix(p[1..], x);
    }
  }

  lemma {:induction false} TrimStartAppend(s: string, q: string)
    requires !IsBlank(s)
    ensures TrimStart(s + q) == TrimStart(s) + q
    decreases |s|
  {
    if IsWhitespace(s[0]) {
      var sq := s + q;
      assert sq[0] == s[0];
      assert sq[1..] == s[1..] + q;
      assert !IsBlank(s[1..]) by {
        var i :| 0 <= i < |s| && !IsWhitespace(s[i]);
        assert s[1..][i - 1] == s[i];
      }
      TrimStartAppend(s[1..], q);
    } else {
      assert (s + q)[0] == s[0];
    }
  }

  lemma {:induction false} TrimEndBlankSuffix(x: string, q: string)
    requires IsBlank(q)
    ensures TrimEnd(x + q) == TrimEnd(x)
    decreases |q|
  {
    if q == [] {
      assert x + q == x;
    } else {
      var xq := x + q;
      assert xq[|xq| - 1] == q[|q| - 1];
      assert xq[..|xq| - 1] == x + q[..|q| - 1];
      TrimEndBlankSuffix(x, q[..|q| - 1]);
    }
  }

  lemma BlankConcat(a: string, b: string)
    requires IsBlank(a) && IsBlank(b)
    ensures IsBlank(a + b)
  {
    forall i | 0 <= i < |a + b|
      ensures IsWhitespace((a + b)[i])
    {
      if i >= |a| { assert (a + b)[i] == b[i - |a|]; }
    }
  }

  /** Surrounding whitespace never changes the trimmed text: `" 32.0,34.7 "` and `"32.0,34.7"` agree. */
  lemma TrimPad(p: string, s: string, q: string)
    requires IsBlank(p) && IsBlank(q)
    ensures Trim(p + s + q) == Trim(s)
  {
    assert p + s + q == p + (s + q);
    TrimStartBlankPrefix(p, s + q);
    if IsBlank(s) {
      BlankConcat(s, q);
      TrimStartEmpty(s + q);
      TrimStartEmpty(s);
    } else {
      TrimStartAppend(s, q);
      TrimEndBlankSuffix(TrimStart(s), q);
    }
  }

  /** Index of the first occurrence of `c`. */
  function IndexOf(s: string, c: char): (i: nat)
    requires c in s
    ensures i < |s| && s[i] == c && c !in s[..i]
  {
    if s[0] == c then 0
    else
      var j := IndexOf(s[1..], c);
      assert s[..j + 1] == [s[0]] + s[1..][..j];
      1 + j
  }

  /** Kotlin's `joinToString(sep)`, the inverse of `Split`. */
  function Join(parts: seq<string>, sep: char): string
  {
    if |parts| == 0 then []
    else if |parts| == 1 then parts[0]
    else parts[0] + [sep] + Join(parts[1..], sep)
  }

  /** Kotlin's `split(sep)` with no limit: every piece is kept, empty ones included. */
  function Split(s: string, sep: char): (r: seq<string>)
    ensures |r| >= 1
    ensures forall i :: 0 <= i < |r| ==> sep !in r[i]
    ensures Join(r, sep) == s
    decreases |s|
  {
    if sep !in s then [s]
    else
      var i := IndexOf(s, sep);
      var rest := Split(s[i + 1..], sep);
      assert s == s[..i] + [sep] + s[i + 1..];
      assert ([s[..i]] + rest)[1..] == rest;
      [s[..i]] + rest
  }

  /** Splitting a join of separator-free pieces gives the pieces back. */
  lemma {:induction false} SplitJoin(parts: seq<string>, sep: char)
    requires |parts| >= 1
    requires forall i :: 0 <= i < |parts| ==> sep !in parts[i]
    ensures Split(Join(parts, sep), sep) == parts
    decreases |parts|
  {
    if |parts| > 1 {
      var s := Join(parts, sep);
      var p := parts[0];
      var tail := Join(parts[1..], sep);
      assert s == p + [sep] + tail;
      assert s[|p|] == sep;
      var i := IndexOf(s, sep);
      assert i == |p|;
      assert s[..i] == p;
      assert s[i + 1..] == tail;
      SplitJoin(parts[1..], sep);
      assert [p] + parts[1..] == parts;
    }
  }

  /** Kotlin's `substringBefore(d)`: the text before the first `d`, or all of `s` if there is none. */
  function SubstringBefore(s: string, d: char): (r: string)
    ensures |r| <= |s| && r == s[..|r|]
    ensures d !in r
    ensures r == s || s[|r|] == d
  {
    if d in s then s[..IndexOf(s, d)] else s
  }

  /** Kotlin's `String.length`: characters outside the Basic Multilingual Plane take two code units. */
  function Utf16Length(s: string): (n: nat)
    ensures |s| <= n <= 2 * |s|
    ensures (forall i :: 0 <= i < |s| ==> s[i] as int <= 0xFFFF) ==> n == |s|
    ensures |s| == 1 ==> (n == 2 <==> s[0] as int > 0xFFFF)
  {
    if s == [] then 0
    else (if s[0] as int > 0xFFFF then 2 else 1) + Utf16Length(s[1..])
  }

  /** The length of a concatenation is the sum of the lengths; with the one-character case of
      `Utf16Length` this fixes the count of every text: one unit per character in the Basic
      Multilingual Plane, two per character outside it. */
  lemma {:induction false} Utf16LengthAppend(a: string, b: string)
    ensures Utf16Length(a + b) == Utf16Length(a) + Utf16Length(b)
    decreases |a|
  {
    if a != [] {
      assert (a + b)[0] == a[0];
      assert (a + b)[1..] == a[1..] + b;
      Utf16LengthAppend(a[1..], b);
    } else {
      assert a + b == b;
    }
  }
}

=== FILE: wrappers.dfy ===
/** Option and Result, the shapes a nullable Kotlin value and a failing call take in this model. */
module Wrappers {

  /** A Kotlin `T?`: `None` is `null`. */
  datatype Option<+T> = None | Some(value: T) {

    /** The Kotlin elvis operator `x ?: default`. */
    function GetOr(default: T): T {
      match this
      case Some(v) => v
      case None => default
    }
  }

  /** The outcome of a call that can throw. */
  datatype Result<+R, +E> = Success(value: R) | Failure(error: E)
}
